=== FILE: README.md ===
# TokyoRewards front end: a verified model of its logic

TokyoRewards is a React front end for a wagering leaderboard. The public page
loads a leaderboard and a prize table from a backend and keeps them current
over a socket. Two admin screens edit the countdown, the hero banner and the
prizes: the panel that the admin gate loads, and an older admin page in the
main bundle. This project models, in Dafny, the logic under those screens and
proves properties of it:

- `JsValues`: the slice of JavaScript value semantics the code relies on.
  This covers `??`, `||` and truthiness, property reads that throw on
  `null`/`undefined`, `String(v)`, and `Number(v)` on integers.
- `Players`: `normalize`, which turns raw player records of any shape into
  `{id, name, avatar, points}` through `??` chains of synonyms.
- `Board`: padding the list to ten slots, splitting it into a podium of
  three and seven rows, and showing each rank's prize.
- `Countdown`: the time left until the end of the leaderboard, as days,
  hours, minutes and seconds, or "Leaderboard ended".
- `Prizes`: the default prize table, `fetchPrizes`, the flooring of pushed
  and loaded tables, and the admin prize editor's cell update.
- `LiveBoard`: the public page's `players`/`rewards` state. It changes on the
  bootstrap fetch, the prize fetch, and the `leaderboard:update` and
  `prizes:update` socket events.
- `Assets`: the backend base URL and `resolveAssetUrl`.
- `Color`: `hexToRgba`'s hex parsing, three-digit expansion and channel
  extraction.
- `Session`: the admin token. This covers its initial value, `saveToken`,
  `logout`, the token each screen sends, and `callAuthed`'s header merge.
- `AdminWrites`: what each admin write sends and what the screen does with
  the answer. The panel logs out on any answer that is not ok; the older page
  logs out only on 401.

Responses are modelled as data: a status plus a body that is either parsed
JSON or text `response.json()` rejects, or a rejected `fetch`. Storage is an
optional string. Timestamps are integer milliseconds. `Date.parse` and the
question whether `new Date(text)` can read a date field are inputs.

Behaviour worth knowing:

- `{wager: "12,50"}` normalizes to NaN points, because `Number("12,50")` is
  NaN (`Players.CommaWagerIsNaN`).
- Placeholder slots are shown with their prizes (`Board.PlaceholdersShowPrizes`).
- An empty `leaderboard:update` array is accepted and clears the board.
- The bootstrap is one attempt, with no retry, timeout or cache.
- A null or undefined record makes `normalize` throw. On bootstrap that ends
  in an empty board. On a socket push the exception escapes the handler and
  the board is left as it was.

## Model

| member | source | states |
|---|---|---|
| JsValues.DecimalRoundTrip | src/main.jsx:149-152 | `String(n)` of a non-negative integer is a non-empty string of decimal digits that reads back as `n` |
| JsValues.IntToDecimal | src/main.jsx:311 | `String(i)` of any integer is non-empty and `Number` reads it back as `i` |
| JsValues.StringToNumber | src/main.jsx:314 | `Number("")` is 0; a character other than a digit after the first position, or a first character that is neither digit nor sign, gives NaN; a result is never positive after `-` and never negative otherwise |
| JsValues.ToJsString | src/main.jsx:311-312 | `String` of a string is the string itself, and `Number` of `String(n)` gives back the number n, NaN included |
| JsValues.ToNumber | src/main.jsx:314 | a number is kept; undefined and any object give NaN; null, "" and `[]` give 0; true and false give 1 and 0 |
| Players.Pick | src/main.jsx:311-314 | a `??` chain over a list of keys is nullish only when it falls back to the fallback |
| Players.PickFirstPresent | src/main.jsx:311-314 | the chain yields the value of the first key whose value is neither null nor undefined, or the fallback when there is none |
| Players.PickIsNullishChain | src/main.jsx:311-314 | picking over four keys is exactly `u.a ?? u.b ?? u.c ?? u.d ?? fallback` |
| Players.FirstPresentUnique | src/main.jsx:311-314 | the first present key is unique, and a present key rules out the fallback |
| Players.NormalizeRecord | src/main.jsx:310-315 | mapping one record throws a TypeError exactly when the record is null or undefined; otherwise the result has a defined avatar |
| Players.Canonicalize | src/main.jsx:310-315 | the record built for an element always has a defined avatar; with no id key the id is `String(i)`, with no name key the name is `Player i+1`, with no points key the points are 0 |
| Players.PickRule | src/main.jsx:311-314 | a chain is the value of whichever key is first present, and the fallback when none is |
| Players.FieldRules | src/main.jsx:311-314 | id is `String` of the first present of id, uuid, user_id, userId, else `String(i)`; name is the first present of name, username, displayName, else `Player i+1`; avatar is the first present of avatar, steam_avatar, image, else null; points is `Number` of the first present of points, wagered, wager, total, else 0 |
| Players.NormalizeAll | src/main.jsx:310-315 | mapping an array succeeds exactly when no element is nullish; the output has the same length, and element k is record k mapped at index k |
| Players.Normalize | src/main.jsx:308-309 | a non-array gives `[]`; an array is mapped element by element |
| Players.NormalizeShape | src/main.jsx:308-316 | `normalize` succeeds exactly when the input is not an array or holds no nullish element; length and order are kept, and every output record is canonical |
| Players.RecordIdempotent | src/main.jsx:310-315 | mapping a canonical record's own plain object again gives back that record, at any index |
| Players.NormalizeIdempotent | src/main.jsx:308-316 | normalizing the output of `normalize` again gives the same records |
| Players.FalsyFieldsKept | src/main.jsx:311-314 | `id: 0`, `name: ""` and `points: 0` are kept as "0", "" and 0, because `??` only skips null and undefined |
| Players.CommaWagerIsNaN | src/main.jsx:314 | `{uuid: "a", username: "X", wager: "12,50"}` normalizes to id "a", name "X", avatar null and NaN points |
| Board.Fillers | src/main.jsx:357-359 | the fillers after `from` kept players are the placeholders for slots `from+1` to 10, in order |
| Board.Padded | src/main.jsx:355-361 | the padded list always has ten entries; entry k is `players[k]` while there is one, else the placeholder for slot k+1 |
| Board.PadPlayers | src/main.jsx:355-361 | slicing to ten and then pushing placeholders while the list is short gives exactly the padded list |
| Board.PodiumAndRestSplit | src/main.jsx:363-364 | the podium is padded entries 0-2 and the rest is entries 3-9, and together they are the whole padded list |
| Board.PrizeAt | src/main.jsx:195-203 | a prize is shown for an index exactly when the entry exists and is a finite number, and the shown value is that entry |
| Board.PodiumBlock | src/main.jsx:187-197 | the block for place p shows the p-th podium player and the prize at index p-1 |
| Board.Rows | src/main.jsx:212-223 | row i shows rank i+4, the i-th remaining player and the prize at index rank-1, one row per player |
| Board.Display | src/main.jsx:173-238 | the page shows ten slots, and the podium reads second, first, third from the left |
| Board.DisplaySlot | src/main.jsx:173-238 | slot 0 is rank 2, slot 1 rank 1, and slot j from 2 on rank j+1; each holds its rank's padded entry and prize |
| Board.DisplayRanks | src/main.jsx:173-238 | the page shows ten slots, each rank 1-10 once; the slot of rank r holds padded entry r-1 and the prize at index r-1 |
| Board.IntegerPrizesShown | src/main.jsx:195-227 | with a ten-entry integer table, rank r shows exactly `prizes[r-1]` |
| Board.PlaceholdersShowPrizes | src/main.jsx:195-227 | with no players, every slot is a placeholder and still shows its prize |
| Countdown.Render | src/main.jsx:140-156 | "Leaderboard ended" is shown exactly when no end is set or `end - now <= 0`; an end `Date.parse` returned NaN for shows NaN in every group |
| Countdown.Split | src/main.jsx:148-152 | hours are below 24, minutes and seconds below 60, and under one day left gives zero days |
| Countdown.SplitIsExact | src/main.jsx:148-152 | for a positive difference, hours < 24, minutes < 60 and seconds < 60, and the parts add up to the difference less under one second |
| Countdown.PadTwoDigits | src/main.jsx:149-152 | `padStart(2, '0')` gives at least two digits that read back as the value, and exactly two below 100 |
| Countdown.CountingDigits | src/main.jsx:148-156 | while time is left, hours, minutes and seconds are two digits, days at least two, and they read back as an exact split of the difference |
| Countdown.OneHourOneMinuteOneSecond | src/main.jsx:148-156 | 3661000 ms left renders as `00d : 01h : 01m : 01s` |
| Countdown.UnparsableEndShowsNaN | src/main.jsx:140-156 | an end `Date.parse` returned NaN for is not ended and renders NaN in every group |
| Prizes.FetchPrizes | src/admin/AdminPanel.jsx:14-19 | the default table when the answer is not ok or `prizes` is not an array; otherwise the server's array verbatim, of any length; a rejected fetch or a body that is not JSON throws |
| Prizes.PrizeValue | src/main.jsx:323 | `Math.floor(Number(n) \|\| 0)` keeps an integer, gives 0 for null, undefined, NaN, "" and objects, and is never negative when `Number` is not |
| Prizes.Floored | src/main.jsx:323 | `arr.map(n => Math.floor(Number(n) \|\| 0))` keeps the length and maps entry by entry |
| Prizes.FlooredIntegers | src/main.jsx:323 | flooring a table of integers changes nothing |
| Prizes.PushedPrizes | src/main.jsx:321-325 | a pushed table is taken exactly when it is an array of ten, and then stored floored |
| Prizes.EditPrize | src/admin/AdminPanel.jsx:479-483 | the edit keeps the length, sets cell idx to `max(0, floor(Number(text) \|\| 0))`, which is never negative, and leaves every other cell as it was |
| Prizes.EditKeepsNonNegative | src/admin/AdminPanel.jsx:479-483 | a table with no negative prize keeps none after an edit |
| Prizes.EditStoresTypedNumber | src/admin/AdminPanel.jsx:481 | typing the decimal spelling of a non-negative integer stores that integer |
| Prizes.EditNonNumberStoresZero | src/admin/AdminPanel.jsx:481 | typing `abc`, clearing the field, or typing `-5` stores 0 |
| Prizes.EditsCommute | src/admin/AdminPanel.jsx:479-483 | edits of different cells commute, and a second edit of a cell overrides the first |
| Prizes.LoadedPrizes | src/admin/AdminPanel.jsx:119-121 | the editor loads the floored server table, and keeps its table when loading throws |
| Prizes.LoadedDefaultsOnError | src/admin/AdminPanel.jsx:15-16 | an answer that is not ok loads the default table into the editor |
| LiveBoard.Initial | src/main.jsx:304-305 | the page starts with no players and the default prize table as numbers, which flooring leaves as it is |
| LiveBoard.BootstrapPlayers | src/main.jsx:331-342 | a rejected fetch or a leaderboard answer that is not ok gives no players; any players shown are the normalized leaderboard body |
| LiveBoard.Step | src/main.jsx:318-350 | prize events never change the players, and leaderboard events never change the prizes |
| LiveBoard.FetchedPrizesStoredVerbatim | src/main.jsx:318 | through the page-local `fetchPrizes` (lines 31-36), the page's prize fetch stores the server's `prizes` array as it arrives, unfloored and of any length; an ok answer whose `prizes` is not an array, or an answer that is not ok, resets the table to the defaults; a fetch that throws leaves the table as it was |
| LiveBoard.FetchedStringTableShowsNoPrize | src/main.jsx:318-323 | the default table spelt as ten strings is stored as strings when fetched, so no rank shows a prize from it; the same table pushed over the socket is floored into the default numbers, and every rank shows its prize |
| LiveBoard.StringDefaultsFloor | src/main.jsx:323 | flooring the ten strings `"175"` … `"10"` with `Math.floor(Number(n) \|\| 0)` gives the default table |
| LiveBoard.RunConcat | src/main.jsx:318-353 | events are handled one at a time in arrival order: handling `a + b` is handling `a`, then `b` |
| LiveBoard.BootstrapOutcomes | src/main.jsx:330-345 | bootstrap shows the normalized list exactly when both fetches settle, the leaderboard answer is ok and JSON, and `normalize` succeeds; every other outcome shows no players; the players are always canonical |
| LiveBoard.BootstrapIgnoresCountdownBody | src/main.jsx:336-337 | the countdown answer's status and body never affect the players |
| LiveBoard.StepKeepsCanonical | src/main.jsx:318-350 | every event keeps all players in the shape `normalize` produces |
| LiveBoard.RunKeepsCanonical | src/main.jsx:318-350 | whatever sequence of events arrives, every player shown stays canonical |
| LiveBoard.LeaderboardPushReplaces | src/main.jsx:347-350 | a push replaces the players exactly when it is an array `normalize` accepts, whatever came before; an empty array clears the board |
| LiveBoard.NullRecordPushIgnored | src/main.jsx:348-349 | a pushed array holding null or undefined makes the handler throw, so nothing changes |
| LiveBoard.PrizePushNeedsTen | src/main.jsx:321-325 | the prize table changes on a push exactly when the payload is an array of ten, to its floored entries |
| LiveBoard.PushStandsThroughPrizeEvents | src/main.jsx:318-350 | an accepted leaderboard push stays shown through any prize events that follow, and leaves their effect on the prizes as it would have been |
| LiveBoard.PrizeEventsKeepPlayers | src/main.jsx:318-325 | a run of prize events leaves the players as they were |
| LiveBoard.PrizeEventsIgnorePlayers | src/main.jsx:318-325 | the prize table after a run of prize events does not depend on the players |
| Assets.BackendUrl | src/admin/AdminPanel.jsx:4 | the base URL is never empty: the default when unset, the setting with one trailing slash dropped, and the default when that leaves nothing |
| Assets.ResolveAssetUrl | src/admin/AdminPanel.jsx:7-12 | a falsy url gives the site logo; an `http://` or `https://` url in any letter case is kept; a truthy non-string that is not absolute throws |
| Assets.RelativeStrings | src/admin/AdminPanel.jsx:10-11 | a non-absolute string starting with `/` gets the backend prefixed; any other is kept |
| Assets.ResolveIdempotent | src/admin/AdminPanel.jsx:7-12 | with an absolute backend, resolving a non-empty string twice is the same as once; the empty string resolves to the logo path, which a second pass prefixes |
| Assets.DefaultBackendIsAbsolute | src/admin/AdminPanel.jsx:4 | the default backend is an absolute http URL |
| Assets.RelativeBackendPrefixesTwice | src/admin/AdminPanel.jsx:10 | with the backend `/api`, resolving `/img.png` twice prefixes `/api` twice |
| Assets.UpperCaseSchemeKept | src/admin/AdminPanel.jsx:9 | `HTTPS://cdn/x.png` counts as absolute and is kept |
| Color.RemoveFirst | src/admin/AdminPanel.jsx:136 | `replace('#', '')` leaves text without `#` unchanged and otherwise drops exactly one character |
| Color.RemoveFirstAt | src/admin/AdminPanel.jsx:136 | the character dropped is the first `#`, wherever it is; what comes before and after it is kept |
| Color.Expand | src/admin/AdminPanel.jsx:137 | three characters are doubled one by one; any other length is kept |
| Color.HexPrefix | src/admin/AdminPanel.jsx:138 | `parseInt` reads the longest run of hex digits at the start and stops at the first other character |
| Color.HexPrefixWhole | src/admin/AdminPanel.jsx:138 | text made only of hex digits is read to its end |
| Color.ParseHex | src/admin/AdminPanel.jsx:138 | `parseInt(h, 16)` reads text of hex digits as its whole value; a first character that is neither digit nor sign gives NaN; the sign decides the sign of the result |
| Color.Channels | src/admin/AdminPanel.jsx:139 | each of `(n >> 16) & 255`, `(n >> 8) & 255` and `n & 255` is in 0..255 |
| Color.HexToRgb | src/admin/AdminPanel.jsx:135-141 | every input gives three channels in 0..255 |
| Color.SixDigitValue | src/admin/AdminPanel.jsx:138 | six hex digits have the value of their three two-digit pairs in base 256 |
| Color.ChannelsOfBytes | src/admin/AdminPanel.jsx:139 | the channels of `r*65536 + g*256 + b` are r, g and b |
| Color.ParseSix | src/admin/AdminPanel.jsx:135-139 | six hex digits after `#` are read whole: the `#` goes, nothing is expanded, and the channels are those of their value |
| Color.BytesSpellValue | src/admin/AdminPanel.jsx:138 | three channels written as two-digit hex bytes read back as `r*65536 + g*256 + b` |
| Color.LongFormRoundTrip | src/admin/AdminPanel.jsx:135-141 | writing channels as `#rrggbb` and converting back gives the same channels |
| Color.SixDigitChannels | src/admin/AdminPanel.jsx:138-140 | for six hex digits of value n, `r*65536 + g*256 + b == n` |
| Color.ParseShort | src/admin/AdminPanel.jsx:136-139 | three hex digits after `#` are doubled and then read whole |
| Color.ShortFormIsLongForm | src/admin/AdminPanel.jsx:136-137 | `#abc` converts exactly as `#aabbcc` does |
| Color.ShortFormDoubles | src/admin/AdminPanel.jsx:136-140 | in the short form, each channel is 17 times its digit |
| Color.NoDigitsIsBlack | src/admin/AdminPanel.jsx:138-140 | text with no hex digit where `parseInt` starts reading gives NaN, and so channels 0, 0, 0 |
| Color.HashInsideIsRemoved | src/admin/AdminPanel.jsx:136-140 | `f#0f` reads as `f0f` and converts to 255, 0, 255 |
| Session.SetAdminToken | src/admin/AdminPanel.jsx:21-23 | storing a token and reading it back gives that token; the empty token removes the entry |
| Session.GetAdminToken | src/admin/AdminPanel.jsx:22 | `getItem(...) \|\| ''` is "" exactly when nothing or "" is stored, and otherwise the stored token |
| Session.Mount | src/admin/AdminPanel.jsx:31-32 | the login field starts with the gate's token when there is one, else the stored token; the screen starts logged in exactly when that is non-empty |
| Session.Type | src/admin/AdminPanel.jsx:227-234 | the login field changes only while logged out, the only time it is shown |
| Session.SaveToken | src/admin/AdminPanel.jsx:124-128 | an empty field does nothing; otherwise storage then reads the field's token and the screen is logged in |
| Session.Logout | src/admin/AdminPanel.jsx:129-133 | storage and field are empty and the screen logged out; the gate's token stays and is still the effective token |
| Session.EffectiveToken | src/admin/AdminPanel.jsx:56-59 | the panel's token is the gate's token when there is one, else the login field |
| Session.RequestToken | src/main.jsx:447 | the panel sends the gate's token when there is one, else the login field; the older page sends whatever storage holds at call time |
| Session.AuthedHeaders | src/admin/AdminPanel.jsx:61-66 | the merged headers hold `x-admin-token` with the token, overriding the caller's; every other caller header is kept, and nothing else is added |
| Session.ConsistentThroughout | src/main.jsx:447 | without a gate token, through any login and logout actions, a logged-in screen holds the stored token in its field, so the panel and the older page send the same non-empty token |
| Session.ActionsKeepConsistent | src/main.jsx:440-446 | login-form actions keep the field equal to the stored token while logged in |
| Session.LoginPersists | src/admin/AdminPanel.jsx:124-128 | after logging in, mounting a screen again restores the token and starts logged in |
| Session.LogoutPersists | src/admin/AdminPanel.jsx:129-133 | after logging out, mounting a screen again starts logged out with an empty field |
| Session.GateTokenOutlivesLogout | src/admin/AdminPanel.jsx:56 | under the gate, the panel's requests send the gate's token even after logging out |
| Session.UnsavedTokenOnlyInPanel | src/main.jsx:447 | a typed but unsaved token is the token the panel's requests would carry, while the older page's would carry the empty stored token |
| AdminWrites.RequestHeaders | src/admin/AdminPanel.jsx:143-209 | every admin request carries the screen's token; JSON writes also carry the JSON content type; nothing else is sent |
| AdminWrites.FieldOrEmpty | src/admin/AdminPanel.jsx:153-154 | `data.key \|\| ''` on a JSON body that is not null succeeds with the field when it is truthy and "" otherwise; a body that is not JSON throws a SyntaxError and a null body a TypeError |
| AdminWrites.Sends | src/admin/AdminPanel.jsx:144-145 | an empty date field never sends; an upload sends exactly when its change event carries a file (line 428); every other write, apart from the two date forms, always sends |
| AdminWrites.LogsOut | src/admin/AdminPanel.jsx:152 | the panel logs out exactly on answers that are not ok; the older page logs out exactly on a 401 |
| AdminWrites.PanelLogsOutOnAnyFailure | src/admin/AdminPanel.jsx:152-209 | on the panel, every sent write other than an upload that gets an answer that is not ok (a 500 as much as a 401) logs out, and changes nothing else |
| AdminWrites.PageLogsOutOnlyOn401 | src/main.jsx:465-466 | on the older page, a sent write that is not ok logs out only when the status is 401; a 500 leaves everything as it was |
| AdminWrites.AfterWrite | src/admin/AdminPanel.jsx:143-209 | a write that sends nothing or is rejected changes nothing; an answer that is not ok changes at most the session; the session either stays or is logged out |
| AdminWrites.UploadStoresImageUrl | src/admin/AdminPanel.jsx:428-436 | on either screen, an ok upload answer that is JSON and not null sets the image to `data.imageUrl \|\| ''`; no file, a rejected request, an answer that is not ok, or a body that is not JSON or is null leaves everything as it was |
| AdminWrites.ClearWindowOnlyOnSuccess | src/admin/AdminPanel.jsx:168-177 | clearing the contest window empties both date fields on an ok answer and leaves them as they were otherwise |
| AdminWrites.PanelPolicyIsStricter | src/main.jsx:465-466 | whenever the older page logs out, the panel does too; a 404 logs out only the panel |
| AdminWrites.LogoutExactly | src/admin/AdminPanel.jsx:152 | a write logs out exactly when its request was sent and answered, it is not an upload, and the screen's rule holds for the answer; logging out empties field and storage; otherwise the session is unchanged |
| AdminWrites.OnlyItsOwnFields | src/admin/AdminPanel.jsx:143-209 | a countdown save changes only the session and the saved end; a window clear only the session and the window; an upload only the image, never the session |
| AdminWrites.OkKeepsSession | src/admin/AdminPanel.jsx:152 | an ok answer never logs out |
| AdminWrites.CountdownSavedEnd | src/admin/AdminPanel.jsx:153-154 | a saved countdown takes the server's non-empty `end`, or "" when the answer has none |
| AdminWrites.EmptyCountdownIsLocal | src/admin/AdminPanel.jsx:144 | an empty date field sends no request and changes nothing |
| AdminWrites.GateRequestsCarryGateToken | src/admin/AdminPanel.jsx:56-66 | under the gate, every request carries the gate's token, before and after a write that logs out |

## Left out

- Rendering, hooks, effect scheduling, routing, alerts, and the CSS strings built from colours. These are user interface, not logic.
- `fetch`, socket subscriptions, local and session storage, and Blob/File upload and export. These are I/O. Responses, storage and socket payloads are inputs.
- The admin gate's ping and its choice between session and local storage. The panel's gate token is a parameter, and the gate's `fetchAuthed` merges headers exactly as `callAuthed` does.
- Floating point. Points and prizes are integers, so fractional values and `Infinity` are not modelled.
- `JsValues.StringToNumber` reads only an optional sign plus decimal digits, and "". Any other text becomes NaN, including text JavaScript reads as a number: fractions ("1.5"), exponents ("1e3"), surrounding white space, "Infinity" and hex, octal or binary literals.
- `Prizes.EditPrize`: typing "1.5" or "1e3" stores 0 in the model, while the page stores 1 and 1000, because `Number` is not modelled on fractions and exponents.
- `Prizes.PrizeValue`: a pushed or loaded string entry such as "12.5" floors to 0 in the model, while the page floors it to 12, for the same reason.
- `Players.NormalizeRecord`: points given as a decimal string such as "12.50" become NaN in the model, while `Number` gives 12.5, for the same reason.
- `toNum`, `formatUSD2` and `formatPrize`. These are floating-point formatting.
- `Color.ParseHex` gives NaN for text with leading white space, which `parseInt` skips: `parseInt(" ff", 16)` is 255.
- `Color.HexToRgb` uses exact integers. JavaScript rounds values of more than 13 hex digits, and `parseInt`'s skipping of leading white space is not modelled.
- The alpha value and the `rgba(...)` text itself. Alpha is floating point; only the three channels are modelled.
- `Color.Expand` counts characters, while `h.length` counts UTF-16 units, so text with characters outside the Basic Multilingual Plane is measured differently. A colour picker only produces ASCII.
- `Date.parse`, `Date.now`, `toISOString` and timezone conversion. The countdown's end, the current time, and whether a date field can be read are inputs.
- The countdown and contest-window loads, and the hero and announcement loads and updates. These are outside the modelled core.
- The ID export's download step. Only its logout rule is modelled.


=== FILE: admin_writes.dfy ===
/**
 The admin screens' writes to the backend: which request each button sends,
 with which headers, and what the screen does with the answer. The two
 screens differ in one rule: the panel logs out on any answer that is not
 ok, the older page only on 401.
 */
module AdminWrites {
  import opened Results
  import opened JsValues
  import opened Http
  import opened Session

  /** The parts of an admin screen a write can change. */
  datatype Admin = Admin(auth: Auth, serverEnd: Value, winStart: string, winEnd: string, imageUrl: Value)

  /**
   The buttons that send authenticated requests. `endLocal` is the date
   field of the countdown form; `readable` says whether `new Date(...)`
   reads the date fields involved, since `toISOString()` throws on one it
   cannot (date parsing itself is not modelled). `hasFile` says whether the
   upload's change event carries a file. The older admin page has no
   contest-window buttons; allowing those writes there too only adds cases
   and changes no statement about the writes it has. Its upload behaves as
   the panel's does: no file sends nothing, an answer that is not ok only
   alerts, and an ok answer stores `data.imageUrl || ''`.
   */
  datatype Write =
    | SaveCountdown(endLocal: string, readable: bool)
    | SaveContestWindow(readable: bool)
    | ClearContestWindow
    | SaveHero
    | SavePrizes
    | ExportIds
    | UploadImage(hasFile: bool)

  /**
   `saveCountdown` with an empty date field only alerts; a date field
   `new Date` cannot read throws before the request; an upload without a
   file returns at once; every other write sends its request.
   */
  function Sends(w: Write): (r: bool)
    ensures w.SaveCountdown? && w.endLocal == "" ==> !r
    ensures w.UploadImage? ==> (r <==> w.hasFile)
    ensures !w.SaveCountdown? && !w.SaveContestWindow? && !w.UploadImage? ==> r
    ensures r ==> !w.SaveCountdown? || w.endLocal != ""
  {
    match w
    case SaveCountdown(endLocal, readable) => endLocal != "" && readable
    case SaveContestWindow(readable) => readable
    case UploadImage(hasFile) => hasFile
    case _ => true
  }

  /** The headers a write passes to `callAuthed` or puts beside `authHeader()`: JSON writes name their body type. */
  function CallerHeaders(w: Write): map<string, string> {
    if w.ExportIds? || w.UploadImage? then map[] else map["content-type" := "application/json"]
  }

  /** The headers the request goes out with. */
  function RequestHeaders(screen: Screen, a: Auth, w: Write): (h: map<string, string>)
    ensures TokenHeader in h && h[TokenHeader] == RequestToken(screen, a)
    ensures !(w.ExportIds? || w.UploadImage?) <==> "content-type" in h
    ensures "content-type" in h ==> h["content-type"] == "application/json"
    ensures h.Keys <= {TokenHeader, "content-type"}
  {
    AuthedHeaders(CallerHeaders(w), RequestToken(screen, a))
  }

  /**
   The logout rule after a write other than an image upload: the panel
   treats any answer that is not ok as a bad token, the older page only 401.
   */
  function LogsOut(screen: Screen, res: Response): (r: bool)
    ensures screen.AdminPanel? ==> (r <==> !Ok(res))
    ensures screen.AdminPage? ==> (r <==> res.status == 401)
    ensures Ok(res) ==> !r
    ensures res.status == 401 ==> r
  {
    match screen
    case AdminPanel => !Ok(res)
    case AdminPage => res.status == 401
  }

  /** `data.key || ''` on the JSON body of an ok answer; a body that is not JSON, or is `null`, throws. */
  function FieldOrEmpty(res: Response, key: string): (r: Result<Value, Exception>)
    ensures res.body.NotJson? ==> r == Failure(SyntaxError)
    ensures res.body.Json? && IsNullish(res.body.value) ==> r == Failure(TypeError)
    ensures r.Success? ==> Truthy(r.value) || r.value == Str("")
    ensures r.Success? && Truthy(Member(res.body.value, key)) ==> r.value == Member(res.body.value, key)
    ensures res.body.Json? && !IsNullish(res.body.value) ==> r == Success(Or(Member(res.body.value, key), Str("")))
  {
    match ReadJson(res)
    case Failure(e) => Failure(e)
    case Success(data) =>
      match Get(data, key)
      case Failure(e) => Failure(e)
      case Success(v) => Success(Or(v, Str("")))
  }

  /**
   The screen after a write and its settled request. A rejected request, or
   a throw while reading an ok answer, leaves the screen as it was.
   */
  function AfterWrite(screen: Screen, s: Admin, w: Write, o: Outcome): (r: Admin)
    ensures !Sends(w) || o.Rejected? ==> r == s
    ensures o.Replied? && !Ok(o.response) ==> r == s.(auth := r.auth)
    ensures r.auth == s.auth || r.auth == Logout(s.auth)
  {
    if !Sends(w) || o.Rejected? then s
    else
      var res := o.response;
      if w.UploadImage? then
        if !Ok(res) then s
        else match FieldOrEmpty(res, "imageUrl")
          case Success(url) => s.(imageUrl := url)
          case Failure(_) => s
      else if LogsOut(screen, res) then s.(auth := Logout(s.auth))
      else if !Ok(res) then s
      else match w
        case SaveCountdown(_, _) =>
          (match FieldOrEmpty(res, "end")
           case Success(e) => s.(serverEnd := e)
           case Failure(_) => s)
        case ClearContestWindow => s.(winStart := "", winEnd := "")
        case _ => s
  }

  /**
   An upload on either screen: an ok JSON answer that is not null stores
   `data.imageUrl || ''` as the image; no file, a rejected request, an
   answer that is not ok, or a throw while reading it leaves the screen as
   it was, and no upload answer ever logs out.
   */
  lemma UploadStoresImageUrl(screen: Screen, s: Admin, hasFile: bool, o: Outcome)
    ensures hasFile && o.Replied? && Ok(o.response) && o.response.body.Json? && !IsNullish(o.response.body.value) ==>
      AfterWrite(screen, s, UploadImage(hasFile), o) == s.(imageUrl := Or(Member(o.response.body.value, "imageUrl"), Str("")))
    ensures !hasFile || o.Rejected? ==> AfterWrite(screen, s, UploadImage(hasFile), o) == s
    ensures o.Replied? && !Ok(o.response) ==> AfterWrite(screen, s, UploadImage(hasFile), o) == s
    ensures o.Replied? && (o.response.body.NotJson? || (o.response.body.Json? && IsNullish(o.response.body.value))) ==>
      AfterWrite(screen, s, UploadImage(hasFile), o) == s
  {
  }

  /** Whatever the older page logs out on, the panel logs out on too; a 404 shows the converse fails. */
  lemma PanelPolicyIsStricter(res: Response)
    ensures LogsOut(AdminPage, res) ==> LogsOut(AdminPanel, res)
    ensures LogsOut(AdminPanel, Response(404, NotJson)) && !LogsOut(AdminPage, Response(404, NotJson))
  {
  }

  /**
   A write logs the screen out exactly when it sent a request that was
   answered, was not an upload, and the screen's rule says so; logging out
   clears the field and storage and leaves the screen logged out.
   */
  lemma LogoutExactly(screen: Screen, s: Admin, w: Write, o: Outcome)
    requires s.auth.hasAuth
    ensures var after := AfterWrite(screen, s, w, o);
      !after.auth.hasAuth <==> Sends(w) && o.Replied? && !w.UploadImage? && LogsOut(screen, o.response)
    ensures var after := AfterWrite(screen, s, w, o);
      !after.auth.hasAuth ==> after.auth == Auth(s.auth.prop, None, "", false)
    ensures var after := AfterWrite(screen, s, w, o);
      after.auth.hasAuth ==> after.auth == s.auth
  {
  }

  /**
   Each write changes only what it is about: the session, and besides it
   the countdown's end for a countdown save, the window for a clear, and
   the image for an upload, which never touches the session.
   */
  lemma OnlyItsOwnFields(screen: Screen, s: Admin, w: Write, o: Outcome)
    ensures var after := AfterWrite(screen, s, w, o);
      && (!w.SaveCountdown? ==> after.serverEnd == s.serverEnd)
      && (!w.ClearContestWindow? ==> after.winStart == s.winStart && after.winEnd == s.winEnd)
      && (!w.UploadImage? ==> after.imageUrl == s.imageUrl)
      && (w.UploadImage? ==> after.auth == s.auth)
  {
  }

  /**
   Clearing the contest window empties both date fields only when the
   answer is ok; a rejected request or any other answer leaves them as they
   were.
   */
  lemma ClearWindowOnlyOnSuccess(screen: Screen, s: Admin, o: Outcome)
    ensures var after := AfterWrite(screen, s, ClearContestWindow, o);
      && (o.Replied? && Ok(o.response) ==> after.winStart == "" && after.winEnd == "")
      && (!(o.Replied? && Ok(o.response)) ==> after.winStart == s.winStart && after.winEnd == s.winEnd)
  {
  }

  /**
   The panel's failure policy: any write that sends its request, other than
   an upload, logs out on every answer that is not ok, a 500 as much as a
   401 or a 404.
   */
  lemma PanelLogsOutOnAnyFailure(s: Admin, w: Write, res: Response)
    requires Sends(w) && !w.UploadImage? && !Ok(res)
    ensures AfterWrite(AdminPanel, s, w, Replied(res)).auth == Logout(s.auth)
    ensures AfterWrite(AdminPanel, s, w, Replied(res)) == s.(auth := Logout(s.auth))
  {
  }

  /** The older page logs out on a 401 only: a 500 leaves the session as it was. */
  lemma PageLogsOutOnlyOn401(s: Admin, w: Write, res: Response)
    requires Sends(w) && !w.UploadImage? && !Ok(res)
    ensures AfterWrite(AdminPage, s, w, Replied(res)).auth == (if res.status == 401 then Logout(s.auth) else s.auth)
    ensures res.status == 500 ==> AfterWrite(AdminPage, s, w, Replied(res)) == s
  {
  }

  /** An ok answer never logs out, on either screen. */
  lemma OkKeepsSession(screen: Screen, s: Admin, w: Write, res: Response)
    requires Ok(res)
    ensures AfterWrite(screen, s, w, Replied(res)).auth == s.auth
  {
  }

  /**
   A saved countdown takes the server's `end` when it is a non-empty
   string, and "" when the answer has none.
   */
  lemma CountdownSavedEnd(screen: Screen, s: Admin, endLocal: string, status: int, fields: map<string, Value>)
    requires endLocal != "" && 200 <= status <= 299
    ensures var after := AfterWrite(screen, s, SaveCountdown(endLocal, true), Replied(Response(status, Json(Obj(fields)))));
      && ("end" in fields && fields["end"].Str? && fields["end"].s != "" ==> after.serverEnd == fields["end"])
      && ("end" !in fields ==> after.serverEnd == Str(""))
  {
  }

  /** An empty date field sends nothing, so nothing changes whatever the network would have said. */
  lemma EmptyCountdownIsLocal(screen: Screen, s: Admin, readable: bool, o: Outcome)
    ensures AfterWrite(screen, s, SaveCountdown("", readable), o) == s
  {
  }

  /** Under the gate, every request carries the gate's token, before and after a logout. */
  lemma GateRequestsCarryGateToken(s: Admin, w: Write, w2: Write, o: Outcome)
    requires s.auth.prop != ""
    ensures RequestHeaders(AdminPanel, s.auth, w)[TokenHeader] == s.auth.prop
    ensures RequestHeaders(AdminPanel, AfterWrite(AdminPanel, s, w, o).auth, w2)[TokenHeader] == s.auth.prop
  {
  }
}

=== FILE: assets.dfy ===
/**
 Where the client sends its requests and loads its images from: the backend
 base URL taken from the build environment, and `resolveAssetUrl`, which
 turns an image reference from the backend into something an `<img>` can load.
 */
module Assets {
  import opened Results
  import opened JsValues

  /** The backend used when the build sets none (or sets only "/"). */
  const DefaultBackend: string := "http://localhost:8080"

  /** The image shown when no image is configured. */
  const SiteLogo: string := "/site-logo.png"

  /**
   `VITE_BACKEND_URL?.replace(/\/$/, '') || 'http://localhost:8080'`: one
   trailing slash is dropped, and an unset or empty result falls back to
   the default.
   */
  function BackendUrl(env: Option<string>): (r: string)
    ensures |r| > 0
    ensures env.None? ==> r == DefaultBackend
    ensures env.Some? && |env.value| > 0 && env.value[|env.value| - 1] != '/' ==> r == env.value
    ensures env.Some? && |env.value| > 1 && env.value[|env.value| - 1] == '/' ==> r + "/" == env.value
    ensures env.Some? && (env.value == "" || env.value == "/") ==> r == DefaultBackend
  {
    match env
    case None => DefaultBackend
    case Some(s) =>
      var trimmed := if |s| > 0 && s[|s| - 1] == '/' then s[..|s| - 1] else s;
      if trimmed == "" then DefaultBackend else trimmed
  }

  /** ASCII case-insensitive comparison of one character with a lower-case letter. */
  predicate LetterIs(c: char, lower: char) {
    c == lower || c as int == lower as int - 32
  }

  /** `/^https?:\/\//i.test(s)` */
  predicate IsAbsoluteHttp(s: string) {
    && |s| >= 7
    && LetterIs(s[0], 'h') && LetterIs(s[1], 't') && LetterIs(s[2], 't') && LetterIs(s[3], 'p')
    && (s[4..7] == "://" || (|s| >= 8 && LetterIs(s[4], 's') && s[5..8] == "://"))
  }

  /**
   `resolveAssetUrl(url)` against the backend `backend`. The regular
   expression sees `url` converted to a string; `startsWith` exists only on
   strings, so any other truthy value that is not an absolute URL throws.
   */
  function ResolveAssetUrl(url: Value, backend: string): (r: Result<Value, Exception>)
    ensures !Truthy(url) ==> r == Success(Str(SiteLogo))
    ensures Truthy(url) && IsAbsoluteHttp(ToJsString(url)) ==> r == Success(url)
    ensures r.Failure? <==> Truthy(url) && !IsAbsoluteHttp(ToJsString(url)) && !url.Str?
    ensures r.Failure? ==> r.error == TypeError
  {
    if !Truthy(url) then Success(Str(SiteLogo))
    else if IsAbsoluteHttp(ToJsString(url)) then Success(url)
    else match url
      case Str(s) => Success(Str(if |s| > 0 && s[0] == '/' then backend + s else s))
      case _ => Failure(TypeError)
  }

  /** A string that is neither empty nor absolute: root-relative paths go to the backend, others are kept. */
  lemma RelativeStrings(s: string, backend: string)
    requires s != "" && !IsAbsoluteHttp(s)
    ensures s[0] == '/' ==> ResolveAssetUrl(Str(s), backend) == Success(Str(backend + s))
    ensures s[0] != '/' ==> ResolveAssetUrl(Str(s), backend) == Success(Str(s))
  {
  }

  /** An absolute URL begins the same way with anything appended. */
  lemma AbsoluteHttpPrefix(s: string, t: string)
    requires IsAbsoluteHttp(s)
    ensures IsAbsoluteHttp(s + t)
  {
    assert (s + t)[..|s|] == s;
    if s[4..7] == "://" {
      assert (s + t)[4..7] == s[4..7];
    } else {
      assert (s + t)[5..8] == s[5..8];
    }
  }

  /**
   With an absolute backend, resolving a non-empty string is idempotent: a
   result resolved once is absolute, or was left as it is, and resolving it
   again changes nothing. The empty string is the exception: it becomes the
   root-relative logo path, which a second pass sends to the backend.
   */
  lemma ResolveIdempotent(s: string, backend: string)
    requires IsAbsoluteHttp(backend)
    ensures var once := ResolveAssetUrl(Str(s), backend);
      && once.Success?
      && (s != "" ==> ResolveAssetUrl(once.value, backend) == once)
      && (s == "" ==> ResolveAssetUrl(once.value, backend) == Success(Str(backend + SiteLogo)))
  {
    if s == "" {
      assert !IsAbsoluteHttp(SiteLogo) by { assert !LetterIs('/', 'h'); }
    } else if !IsAbsoluteHttp(s) && s[0] == '/' {
      AbsoluteHttpPrefix(backend, s);
      assert ToJsString(Str(backend + s)) == backend + s;
    }
  }

  /** The default backend is absolute, so resolving against it is idempotent. */
  lemma DefaultBackendIsAbsolute()
    ensures IsAbsoluteHttp(DefaultBackend)
  {
    assert DefaultBackend[4..7] == "://";
  }

  /**
   With a root-relative backend (`VITE_BACKEND_URL=/api`), resolving twice
   prefixes the backend twice.
   */
  lemma RelativeBackendPrefixesTwice()
    ensures ResolveAssetUrl(Str("/img.png"), "/api") == Success(Str("/api/img.png"))
    ensures ResolveAssetUrl(Str("/api/img.png"), "/api") == Success(Str("/api/api/img.png"))
  {
    assert !IsAbsoluteHttp("/img.png") by { assert !LetterIs('/', 'h'); }
    assert !IsAbsoluteHttp("/api/img.png") by { assert !LetterIs('/', 'h'); }
    assert "/api" + "/img.png" == "/api/img.png";
    assert "/api" + "/api/img.png" == "/api/api/img.png";
  }

  /** Mixed-case schemes are absolute too: `HTTPS://cdn/x.png` is kept as it is. */
  lemma UpperCaseSchemeKept(backend: string)
    ensures ResolveAssetUrl(Str("HTTPS://cdn/x.png"), backend) == Success(Str("HTTPS://cdn/x.png"))
  {
    assert "HTTPS://cdn/x.png"[5..8] == "://";
  }
}

=== FILE: board.dfy ===
/**
 The leaderboard's display layout: the player list is cut or padded to
 exactly ten slots, split into a three-place podium and seven rows, and
 each rank is shown with the prize stored at index rank - 1.
 */
module Board {
  import opened Results
  import opened JsValues
  import opened Players
  import opened Prizes

  /** The number of ranked slots the page always shows. */
  const Slots: nat := 10

  /** The filler shown in the 1-based slot `k` when there are fewer than ten players. */
  function Placeholder(k: nat): Player {
    Player("placeholder-" + NatToDecimal(k), "—", Null, Int(0))
  }

  /** Fillers for the 1-based slots `from + 1` .. `Slots`. */
  function Fillers(from: nat): (r: seq<Player>)
    requires from <= Slots
    ensures |r| == Slots - from
    ensures forall j :: 0 <= j < |r| ==> r[j] == Placeholder(from + j + 1)
    decreases Slots - from
  {
    if from == Slots then [] else [Placeholder(from + 1)] + Fillers(from + 1)
  }

  /** `players.slice(0, 10)` followed by fillers up to ten entries. */
  function Padded(players: seq<Player>): (r: seq<Player>)
    ensures |r| == Slots
    ensures forall k :: 0 <= k < Slots ==> r[k] == (if k < |players| then players[k] else Placeholder(k + 1))
  {
    var kept := if |players| <= Slots then players else players[..Slots];
    kept + Fillers(|kept|)
  }

  /** The `padded` computation as the page writes it: slice, then push fillers while short. */
  method PadPlayers(players: seq<Player>) returns (out: seq<Player>)
    ensures out == Padded(players)
  {
    out := if |players| <= Slots then players else players[..Slots];
    while |out| < Slots
      invariant |out| <= Slots
      invariant forall k :: 0 <= k < |out| ==> out[k] == (if k < |players| then players[k] else Placeholder(k + 1))
      decreases Slots - |out|
    {
      out := out + [Placeholder(|out| + 1)];
    }
    assert forall k :: 0 <= k < Slots ==> out[k] == Padded(players)[k];
  }

  /** `padded.slice(0, 3)`: first, second and third place. */
  function Podium(padded: seq<Player>): seq<Player>
    requires |padded| == Slots
  {
    padded[..3]
  }

  /** `padded.slice(3)`: the rows for ranks 4 to 10. */
  function Rest(padded: seq<Player>): seq<Player>
    requires |padded| == Slots
  {
    padded[3..]
  }

  /** The podium holds ranks 1-3 and the rows ranks 4-10, in order, and together they are the whole list. */
  lemma PodiumAndRestSplit(players: seq<Player>)
    ensures |Podium(Padded(players))| == 3 && |Rest(Padded(players))| == 7
    ensures Podium(Padded(players)) + Rest(Padded(players)) == Padded(players)
    ensures forall i :: 0 <= i < 3 ==> Podium(Padded(players))[i] == Padded(players)[i]
    ensures forall i :: 0 <= i < 7 ==> Rest(Padded(players))[i] == Padded(players)[i + 3]
  {
  }

  /**
   The prize shown at `rewards[index]`: only a finite number is shown
   (`Number.isFinite`), so a missing entry, NaN or a non-number shows none.
   */
  function PrizeAt(rewards: seq<Value>, index: int): (r: Option<int>)
    ensures r.Some? ==> 0 <= index < |rewards| && rewards[index] == Num(Int(r.value))
    ensures r.None? <==> !(0 <= index < |rewards| && rewards[index].Num? && rewards[index].n.Int?)
  {
    if 0 <= index < |rewards| && rewards[index].Num? && rewards[index].n.Int?
    then Some(rewards[index].n.i) else None
  }

  /** One rendered slot: its rank, the player in it, and the prize shown beside it. */
  datatype Slot = Slot(rank: nat, player: Player, prize: Option<int>)

  /** `PodiumBlock` for `place` of a three-player podium: the prize is `rewards[place - 1]`. */
  function PodiumBlock(podium: seq<Player>, place: nat, rewards: seq<Value>): (s: Slot)
    requires |podium| == 3 && 1 <= place <= 3
    ensures s.rank == place
    ensures s.player == podium[s.rank - 1] && s.prize == PrizeAt(rewards, s.rank - 1)
  {
    Slot(place, podium[place - 1], PrizeAt(rewards, place - 1))
  }

  /** The podium as laid out left to right: second, first, third. */
  function PodiumBlocks(podium: seq<Player>, rewards: seq<Value>): seq<Slot>
    requires |podium| == 3
  {
    [PodiumBlock(podium, 2, rewards), PodiumBlock(podium, 1, rewards), PodiumBlock(podium, 3, rewards)]
  }

  /** `LeaderboardRows`: row `i` shows rank `#i+4` and `rewards[i + 3]`. */
  function Rows(rest: seq<Player>, rewards: seq<Value>): (r: seq<Slot>)
    ensures |r| == |rest|
    ensures forall i :: 0 <= i < |r| ==> r[i].rank == i + 4
    ensures forall i :: 0 <= i < |r| ==> r[i].player == rest[r[i].rank - 4] && r[i].prize == PrizeAt(rewards, r[i].rank - 1)
  {
    seq(|rest|, i requires 0 <= i < |rest| => Slot(i + 4, rest[i], PrizeAt(rewards, i + 3)))
  }

  /** Everything the page shows for the ranked list: the podium blocks, then the rows. */
  function Display(players: seq<Player>, rewards: seq<Value>): (r: seq<Slot>)
    ensures |r| == Slots
    ensures r[0].rank == 2 && r[1].rank == 1 && r[2].rank == 3
  {
    var padded := Padded(players);
    PodiumBlocks(Podium(padded), rewards) + Rows(Rest(padded), rewards)
  }

  /** The rank shown in display position `j`: the podium reads 2, 1, 3, then the rows 4 to 10. */
  function DisplayRank(j: nat): nat {
    if j == 0 then 2 else if j == 1 then 1 else j + 1
  }

  /** Display position `j` holds the padded entry and the prize of its rank. */
  lemma DisplaySlot(players: seq<Player>, rewards: seq<Value>, j: nat)
    requires j < Slots
    ensures |Display(players, rewards)| == Slots
    ensures var r := DisplayRank(j);
      Display(players, rewards)[j] == Slot(r, Padded(players)[r - 1], PrizeAt(rewards, r - 1))
  {
    var padded := Padded(players);
    var podium := PodiumBlocks(Podium(padded), rewards);
    var rows := Rows(Rest(padded), rewards);
    assert Display(players, rewards) == podium + rows;
    if j < 3 {
      assert Display(players, rewards)[j] == podium[j];
    } else {
      assert Display(players, rewards)[j] == rows[j - 3];
      assert Rest(padded)[j - 3] == padded[j];
    }
  }

  /**
   Every rank 1..10 is shown exactly once, with the player in slot
   rank - 1 of the padded list and the prize at index rank - 1,
   placeholders included.
   */
  lemma DisplayRanks(players: seq<Player>, rewards: seq<Value>)
    ensures |Display(players, rewards)| == Slots
    ensures forall j :: 0 <= j < Slots ==>
      var s := Display(players, rewards)[j];
      && 1 <= s.rank <= Slots
      && s.player == Padded(players)[s.rank - 1]
      && s.prize == PrizeAt(rewards, s.rank - 1)
    ensures forall j, j' :: 0 <= j < j' < Slots ==> Display(players, rewards)[j].rank != Display(players, rewards)[j'].rank
  {
    DisplaySlot(players, rewards, 0);
    forall j | 0 <= j < Slots
      ensures Display(players, rewards)[j].rank == DisplayRank(j)
      ensures Display(players, rewards)[j].player == Padded(players)[DisplayRank(j) - 1]
      ensures Display(players, rewards)[j].prize == PrizeAt(rewards, DisplayRank(j) - 1)
    {
      DisplaySlot(players, rewards, j);
    }
  }

  /** For integer prize tables, rank `r` shows exactly `prizes[r - 1]`. */
  lemma IntegerPrizesShown(players: seq<Player>, prizes: seq<int>)
    requires |prizes| == Slots
    ensures forall j :: 0 <= j < Slots ==>
      Display(players, IntPrizes(prizes))[j].prize == Some(prizes[Display(players, IntPrizes(prizes))[j].rank - 1])
  {
    DisplayRanks(players, IntPrizes(prizes));
  }

  /** With no players at all, the ten placeholder slots still show their prizes. */
  lemma PlaceholdersShowPrizes(prizes: seq<int>)
    requires |prizes| == Slots
    ensures forall j :: 0 <= j < Slots ==>
      var s := Display([], IntPrizes(prizes))[j];
      s.player == Placeholder(s.rank) && s.prize.Some?
  {
    DisplayRanks([], IntPrizes(prizes));
  }
}

=== FILE: color.dfy ===
/**
 `hexToRgba`, the admin panel's conversion of a colour-picker value such as
 `#ff8800` or `#f80` into the red, green and blue channels of a CSS
 `rgba(...)` glow colour.
 */
module Color {
  import opened JsValues

  /** The three channels `hexToRgba` prints. */
  datatype Rgb = Rgb(r: int, g: int, b: int)

  /** Where `c` first occurs in `s`. */
  function FirstIndex(s: string, c: char): (j: nat)
    requires c in s
    ensures j < |s| && s[j] == c && c !in s[..j]
  {
    if s[0] == c then 0
    else
      var j := FirstIndex(s[1..], c) + 1;
      assert s[..j] == [s[0]] + s[1..][..j - 1];
      j
  }

  /** `s.replace('#', '')`: a string pattern replaces its first occurrence only. */
  function RemoveFirst(s: string, c: char): (r: string)
    ensures c !in s ==> r == s
    ensures |r| == if c in s then |s| - 1 else |s|
  {
    if |s| == 0 then s
    else if s[0] == c then s[1..]
    else [s[0]] + RemoveFirst(s[1..], c)
  }

  /** What `RemoveFirst` removes is the character at the first occurrence, and nothing else. */
  lemma {:induction false} RemoveFirstAt(s: string, c: char)
    requires c in s
    ensures RemoveFirst(s, c) == s[..FirstIndex(s, c)] + s[FirstIndex(s, c) + 1..]
  {
    if s[0] != c {
      RemoveFirstAt(s[1..], c);
      var j := FirstIndex(s[1..], c);
      assert FirstIndex(s, c) == j + 1;
      assert s[..j + 1] == [s[0]] + s[1..][..j];
      assert s[j + 2..] == s[1..][j + 1..];
    }
  }

  /** `h.split('').map(c => c + c).join('')` when `h` has exactly three characters. */
  function Expand(h: string): (r: string)
    ensures |h| != 3 ==> r == h
    ensures |h| == 3 ==> r == [h[0], h[0], h[1], h[1], h[2], h[2]]
  {
    if |h| == 3 then [h[0], h[0], h[1], h[1], h[2], h[2]] else h
  }

  predicate IsHexDigit(c: char) {
    ('0' <= c <= '9') || ('a' <= c <= 'f') || ('A' <= c <= 'F')
  }

  predicate AllHex(s: string) {
    forall k :: 0 <= k < |s| ==> IsHexDigit(s[k])
  }

  function HexDigitValue(c: char): (d: nat)
    requires IsHexDigit(c)
    ensures d < 16
  {
    if '0' <= c <= '9' then c as int - '0' as int
    else if 'a' <= c <= 'f' then c as int - 'a' as int + 10
    else c as int - 'A' as int + 10
  }

  /** The value of a string of hex digits, most significant first. */
  function HexValue(s: string): nat
    requires AllHex(s)
  {
    if |s| == 0 then 0 else HexValue(s[..|s| - 1]) * 16 + HexDigitValue(s[|s| - 1])
  }

  /** The longest run of hex digits at the start of `s`: where `parseInt` stops reading. */
  function HexPrefix(s: string): (r: string)
    ensures |r| <= |s| && r == s[..|r|]
    ensures AllHex(r)
    ensures |r| < |s| ==> !IsHexDigit(s[|r|])
  {
    if |s| == 0 || !IsHexDigit(s[0]) then ""
    else [s[0]] + HexPrefix(s[1..])
  }

  /** Text made only of hex digits is read to its end. */
  lemma {:induction false} HexPrefixWhole(s: string)
    ensures AllHex(s) ==> HexPrefix(s) == s
  {
    if |s| > 0 && AllHex(s) {
      assert AllHex(s[1..]);
      HexPrefixWhole(s[1..]);
      assert [s[0]] + s[1..] == s;
    }
  }

  /**
   `parseInt(s, 16)` for text without leading white space: an optional sign,
   an optional `0x`, then as many hex digits as there are; none gives NaN.
   */
  function ParseHex(s: string): (n: JsNumber)
    ensures |s| > 0 && AllHex(s) ==> n == Int(HexValue(s))
    ensures |s| > 0 && !IsHexDigit(s[0]) && s[0] != '-' && s[0] != '+' ==> n.NaN?
    ensures n.Int? && |s| > 0 && s[0] == '-' ==> n.i <= 0
    ensures n.Int? && !(|s| > 0 && s[0] == '-') ==> n.i >= 0
  {
    HexPrefixWhole(s);
    var neg := |s| > 0 && s[0] == '-';
    var t := if |s| > 0 && (s[0] == '-' || s[0] == '+') then s[1..] else s;
    var u := if |t| >= 2 && t[0] == '0' && (t[1] == 'x' || t[1] == 'X') then t[2..] else t;
    var digits := HexPrefix(u);
    if digits == "" then NaN
    else Int(if neg then 0 - HexValue(digits) else HexValue(digits))
  }

  /**
   `(n >> 16) & 255`, `(n >> 8) & 255` and `n & 255`: NaN converts to 0, and on
   a two's-complement integer each is a floored division and a non-negative
   remainder.
   */
  function Channels(n: JsNumber): (c: Rgb)
    ensures 0 <= c.r < 256 && 0 <= c.g < 256 && 0 <= c.b < 256
  {
    match n
    case NaN => Rgb(0, 0, 0)
    case Int(i) => Rgb((i / 65536) % 256, (i / 256) % 256, i % 256)
  }

  /** The channels `hexToRgba(hex, alpha)` prints. */
  function HexToRgb(hex: string): (c: Rgb)
    ensures 0 <= c.r < 256 && 0 <= c.g < 256 && 0 <= c.b < 256
  {
    Channels(ParseHex(Expand(RemoveFirst(hex, '#'))))
  }

  /** A lower-case hex digit, as a colour picker writes it. */
  function HexChar(d: nat): (c: char)
    requires d < 16
    ensures IsHexDigit(c) && HexDigitValue(c) == d
  {
    if d < 10 then ('0' as int + d) as char else ('a' as int + d - 10) as char
  }

  /** A channel as the two hex digits of `#rrggbb`. */
  function HexByte(x: nat): (s: string)
    requires x < 256
    ensures |s| == 2 && AllHex(s)
    ensures HexDigitValue(s[0]) * 16 + HexDigitValue(s[1]) == x
  {
    [HexChar(x / 16), HexChar(x % 16)]
  }

  /** Six hex digits read as the three channels they spell. */
  lemma {:induction false} SixDigitValue(s: string)
    requires |s| == 6 && AllHex(s)
    ensures HexValue(s) == (HexDigitValue(s[0]) * 16 + HexDigitValue(s[1])) * 65536
                         + (HexDigitValue(s[2]) * 16 + HexDigitValue(s[3])) * 256
                         + (HexDigitValue(s[4]) * 16 + HexDigitValue(s[5]))
  {
    var d0, d1, d2 := HexDigitValue(s[0]), HexDigitValue(s[1]), HexDigitValue(s[2]);
    var d3, d4, d5 := HexDigitValue(s[3]), HexDigitValue(s[4]), HexDigitValue(s[5]);
    assert s[..0] == "";
    assert s[..1][..0] == s[..0];
    assert s[..2][..1] == s[..1];
    assert s[..3][..2] == s[..2];
    assert s[..4][..3] == s[..3];
    assert s[..5][..4] == s[..4];
    assert s[..5] == s[..6][..5];
    assert s[..6] == s;
    assert HexValue(s[..1]) == d0;
    assert HexValue(s[..2]) == d0 * 16 + d1;
    assert HexValue(s[..3]) == (d0 * 16 + d1) * 16 + d2;
    assert HexValue(s[..4]) == ((d0 * 16 + d1) * 16 + d2) * 16 + d3;
    assert HexValue(s[..5]) == (((d0 * 16 + d1) * 16 + d2) * 16 + d3) * 16 + d4;
  }

  /** The channels of an integer below 2^24 spelled as `r`, `g`, `b` come back as `r`, `g`, `b`. */
  lemma ChannelsOfBytes(r: nat, g: nat, b: nat)
    requires r < 256 && g < 256 && b < 256
    ensures Channels(Int(r * 65536 + g * 256 + b)) == Rgb(r, g, b)
  {
    var n := r * 65536 + g * 256 + b;
    assert n / 65536 == r;
    assert n / 256 == r * 256 + g;
    assert (r * 256 + g) % 256 == g;
    assert n % 256 == b;
  }

  /** Six hex digits after `#` are read whole: no `#` is left, no expansion, no sign or `0x`. */
  lemma ParseSix(s: string)
    requires |s| == 6 && AllHex(s)
    ensures HexToRgb("#" + s) == Channels(Int(HexValue(s)))
  {
    assert ("#" + s)[0] == '#';
    assert RemoveFirst("#" + s, '#') == ("#" + s)[1..] == s;
    assert HexPrefix(s) == s;
  }

  /** Three channels written as hex bytes spell `r*65536 + g*256 + b`. */
  lemma BytesSpellValue(r: nat, g: nat, b: nat)
    requires r < 256 && g < 256 && b < 256
    ensures |HexByte(r) + HexByte(g) + HexByte(b)| == 6 && AllHex(HexByte(r) + HexByte(g) + HexByte(b))
    ensures HexValue(HexByte(r) + HexByte(g) + HexByte(b)) == r * 65536 + g * 256 + b
  {
    var digits := HexByte(r) + HexByte(g) + HexByte(b);
    assert digits[0] == HexByte(r)[0] && digits[1] == HexByte(r)[1];
    assert digits[2] == HexByte(g)[0] && digits[3] == HexByte(g)[1];
    assert digits[4] == HexByte(b)[0] && digits[5] == HexByte(b)[1];
    SixDigitValue(digits);
  }

  /** Writing a colour as `#rrggbb` and converting it back gives the same three channels. */
  lemma {:induction false} LongFormRoundTrip(r: nat, g: nat, b: nat)
    requires r < 256 && g < 256 && b < 256
    ensures HexToRgb("#" + HexByte(r) + HexByte(g) + HexByte(b)) == Rgb(r, g, b)
  {
    var digits := HexByte(r) + HexByte(g) + HexByte(b);
    BytesSpellValue(r, g, b);
    assert "#" + HexByte(r) + HexByte(g) + HexByte(b) == "#" + digits;
    ParseSix(digits);
    ChannelsOfBytes(r, g, b);
  }

  /** Any six hex digits after `#` give channels that spell their value: `r*65536 + g*256 + b == n`. */
  lemma {:induction false} SixDigitChannels(s: string)
    requires |s| == 6 && AllHex(s)
    ensures var c := HexToRgb("#" + s);
      c.r * 65536 + c.g * 256 + c.b == HexValue(s)
  {
    var r := HexDigitValue(s[0]) * 16 + HexDigitValue(s[1]);
    var g := HexDigitValue(s[2]) * 16 + HexDigitValue(s[3]);
    var b := HexDigitValue(s[4]) * 16 + HexDigitValue(s[5]);
    assert HexValue(s) == r * 65536 + g * 256 + b by {
      SixDigitValue(s);
    }
    ParseSix(s);
    ChannelsOfBytes(r, g, b);
  }

  /** Three hex digits after `#` are doubled and then read whole. */
  lemma ParseShort(x: char, y: char, z: char)
    requires IsHexDigit(x) && IsHexDigit(y) && IsHexDigit(z)
    ensures AllHex([x, x, y, y, z, z])
    ensures HexToRgb(['#', x, y, z]) == Channels(Int(HexValue([x, x, y, y, z, z])))
  {
    assert RemoveFirst(['#', x, y, z], '#') == [x, y, z];
    assert Expand([x, y, z]) == [x, x, y, y, z, z];
    assert HexPrefix([x, x, y, y, z, z]) == [x, x, y, y, z, z];
  }

  /** `#abc` converts exactly as `#aabbcc` does. */
  lemma ShortFormIsLongForm(x: char, y: char, z: char)
    requires IsHexDigit(x) && IsHexDigit(y) && IsHexDigit(z)
    ensures HexToRgb(['#', x, y, z]) == HexToRgb(['#', x, x, y, y, z, z])
  {
    ParseShort(x, y, z);
    assert ['#', x, x, y, y, z, z] == "#" + [x, x, y, y, z, z];
    ParseSix([x, x, y, y, z, z]);
  }

  /** The short form `#rgb` doubles each digit: every channel is 17 times its digit. */
  lemma {:induction false} ShortFormDoubles(x: char, y: char, z: char)
    requires IsHexDigit(x) && IsHexDigit(y) && IsHexDigit(z)
    ensures HexToRgb(['#', x, y, z]) == Rgb(17 * HexDigitValue(x), 17 * HexDigitValue(y), 17 * HexDigitValue(z))
  {
    var dx, dy, dz := HexDigitValue(x), HexDigitValue(y), HexDigitValue(z);
    var long := [x, x, y, y, z, z];
    ParseShort(x, y, z);
    SixDigitValue(long);
    assert HexValue(long) == (17 * dx) * 65536 + (17 * dy) * 256 + 17 * dz;
    ChannelsOfBytes(17 * dx, 17 * dy, 17 * dz);
  }

  /** Text with no hex digits where `parseInt` starts reading converts to black. */
  lemma NoDigitsIsBlack(hex: string)
    requires var h := Expand(RemoveFirst(hex, '#')); |h| > 0 && !IsHexDigit(h[0]) && h[0] != '-' && h[0] != '+'
    ensures HexToRgb(hex) == Rgb(0, 0, 0)
  {
  }

  /** Only the first `#` is removed, wherever it is: `f#0f` reads as `f0f`, magenta. */
  lemma HashInsideIsRemoved()
    ensures HexToRgb("f#0f") == Rgb(255, 0, 255)
  {
    assert RemoveFirst("f#0f", '#') == "f0f" == RemoveFirst(['#', 'f', '0', 'f'], '#');
    ShortFormDoubles('f', '0', 'f');
  }
}

=== FILE: countdown.dfy ===
/**
 The leaderboard countdown: the time left until `end` is shown as days,
 hours, minutes and seconds, each written with at least two digits, or as
 "Leaderboard ended" once nothing is left or no end is set.
 */
module Countdown {
  import opened JsValues

  /**
   The countdown's `end` state: unset (`null`), a parsed timestamp in
   milliseconds, or a string `Date.parse` could not read (NaN).
   */
  datatype End = NoEnd | At(ms: int) | Unparsable

  /** What the countdown renders. */
  datatype View = Ended | Counting(days: string, hours: string, minutes: string, seconds: string)

  const MsPerSecond: nat := 1000
  const MsPerMinute: nat := 60000
  const MsPerHour: nat := 3600000
  const MsPerDay: nat := 86400000

  /** `String(n).padStart(2, '0')` */
  function PadTwo(n: nat): string {
    var digits := NatToDecimal(n);
    if |digits| < 2 then "0" + digits else digits
  }

  /** The whole days, hours, minutes and seconds in a positive number of milliseconds. */
  datatype Parts = Parts(days: nat, hours: nat, minutes: nat, seconds: nat)

  /** `Math.floor(diff / unit) % base` for each unit of the display. */
  function Split(diff: int): (p: Parts)
    requires diff > 0
    ensures p.hours < 24 && p.minutes < 60 && p.seconds < 60
    ensures diff < MsPerDay ==> p.days == 0
  {
    Parts(diff / MsPerDay, (diff / MsPerHour) % 24, (diff / MsPerMinute) % 60, (diff / MsPerSecond) % 60)
  }

  /** The `Countdown` component's rendering decision at time `now`. */
  function Render(end: End, now: int): (v: View)
    ensures v.Ended? <==> end.NoEnd? || (end.At? && end.ms - now <= 0)
    ensures end.Unparsable? ==> v == Counting("NaN", "NaN", "NaN", "NaN")
  {
    match end
    case NoEnd => Ended
    case At(ms) =>
      if ms - now <= 0 then Ended
      else
        var p := Split(ms - now);
        Counting(PadTwo(p.days), PadTwo(p.hours), PadTwo(p.minutes), PadTwo(p.seconds))
    // NaN - now <= 0 is false, and every digit group is String(NaN)
    case Unparsable => Counting("NaN", "NaN", "NaN", "NaN")
  }

  /** The text of the view. */
  function Text(v: View): string {
    match v
    case Ended => "Leaderboard ended"
    case Counting(d, h, m, s) => d + "d : " + h + "h : " + m + "m : " + s + "s"
  }

  /** The parts are in range and add up to the difference, less under one second. */
  lemma {:induction false} SplitIsExact(diff: int)
    requires diff > 0
    ensures var p := Split(diff);
      && p.hours < 24 && p.minutes < 60 && p.seconds < 60
      && p.days * MsPerDay + p.hours * MsPerHour + p.minutes * MsPerMinute + p.seconds * MsPerSecond <= diff
      && diff < p.days * MsPerDay + p.hours * MsPerHour + p.minutes * MsPerMinute + p.seconds * MsPerSecond + 1000
  {
    var totalS := diff / 1000;
    var totalM := diff / 60000;
    var totalH := diff / 3600000;
    var d := diff / 86400000;
    assert totalM == totalS / 60;
    assert totalH == totalM / 60;
    assert d == totalH / 24;
    var s := totalS % 60;
    var m := totalM % 60;
    var h := totalH % 24;
    assert totalS == 60 * totalM + s;
    assert totalM == 60 * totalH + m;
    assert totalH == 24 * d + h;
    assert diff == 1000 * totalS + diff % 1000;
    var sum := d * 86400000 + h * 3600000 + m * 60000 + s * 1000;
    assert 1000 * totalS == sum by {
      calc {
        1000 * totalS;
        1000 * (60 * totalM + s);
        60000 * totalM + 1000 * s;
        60000 * (60 * totalH + m) + 1000 * s;
        3600000 * totalH + 60000 * m + 1000 * s;
        3600000 * (24 * d + h) + 60000 * m + 1000 * s;
        sum;
      }
    }
  }

  /** `padStart(2, '0')` writes values under 100 as exactly two digits that read back as the value. */
  lemma PadTwoDigits(n: nat)
    ensures |PadTwo(n)| >= 2 && AllDigits(PadTwo(n)) && DigitsValue(PadTwo(n)) == n
    ensures n < 100 ==> |PadTwo(n)| == 2
  {
    DecimalRoundTrip(n);
    var digits := NatToDecimal(n);
    if |digits| < 2 {
      var padded := "0" + digits;
      assert padded[..|padded| - 1] == "0";
      assert DigitsValue("0") == 0 by {
        assert "0"[..0] == "";
      }
    }
    if n < 100 && n >= 10 {
      assert NatToDecimal(n / 10) == [DigitChar(n / 10)];
    }
  }

  /**
   While time is left, hours, minutes and seconds are two digits each, days
   at least two, and the digits read back as a split of the difference that
   is exact to the second.
   */
  lemma CountingDigits(ms: int, now: int)
    requires ms - now > 0
    ensures var v := Render(At(ms), now);
      var p := Split(ms - now);
      && v.Counting?
      && |v.days| >= 2 && |v.hours| == 2 && |v.minutes| == 2 && |v.seconds| == 2
      && AllDigits(v.days) && AllDigits(v.hours) && AllDigits(v.minutes) && AllDigits(v.seconds)
      && DigitsValue(v.days) == p.days && DigitsValue(v.hours) == p.hours
      && DigitsValue(v.minutes) == p.minutes && DigitsValue(v.seconds) == p.seconds
      && p.hours < 24 && p.minutes < 60 && p.seconds < 60
      && p.days * MsPerDay + p.hours * MsPerHour + p.minutes * MsPerMinute + p.seconds * MsPerSecond <= ms - now
      && ms - now < p.days * MsPerDay + p.hours * MsPerHour + p.minutes * MsPerMinute + p.seconds * MsPerSecond + 1000
  {
    var p := Split(ms - now);
    SplitIsExact(ms - now);
    PadTwoDigits(p.days);
    PadTwoDigits(p.hours);
    PadTwoDigits(p.minutes);
    PadTwoDigits(p.seconds);
  }

  /** One hour, one minute and one second left renders as `00d : 01h : 01m : 01s`. */
  lemma OneHourOneMinuteOneSecond(now: int)
    ensures Text(Render(At(now + 3661000), now)) == "00d : 01h : 01m : 01s"
  {
    assert Split(3661000) == Parts(0, 1, 1, 1);
    assert NatToDecimal(0) == "0" && NatToDecimal(1) == "1";
    assert PadTwo(0) == "00" && PadTwo(1) == "01";
    assert Render(At(now + 3661000), now) == Counting("00", "01", "01", "01");
  }

  /** An end string `Date.parse` rejects is not treated as ended: every group shows NaN. */
  lemma UnparsableEndShowsNaN(now: int)
    ensures Text(Render(Unparsable, now)) == "NaNd : NaNh : NaNm : NaNs"
  {
  }
}

=== FILE: http.dfy ===
/** What a `fetch` call can come back with, as far as the client looks at it. */
module Http {
  import opened JsValues

  /** A response body: JSON text parsed into a value, or text `response.json()` rejects. */
  datatype Body = Json(value: Value) | NotJson

  datatype Response = Response(status: int, body: Body)

  /** `response.ok`: the status is in the 2xx range. */
  predicate Ok(r: Response) {
    200 <= r.status <= 299
  }

  /** The settled `fetch` promise: rejected (network failure) or a response. */
  datatype Outcome = Rejected | Replied(response: Response)

  /** `await response.json()` */
  function ReadJson(r: Response): Results.Result<Value, Exception> {
    match r.body
    case Json(v) => Results.Success(v)
    case NotJson => Results.Failure(SyntaxError)
  }
}

=== FILE: js_values.dfy ===
/**
 The slice of JavaScript's value semantics the leaderboard client relies on:
 nullish and truthy tests, property reads, `String(x)` and `Number(x)`.
 Numbers are restricted to the integers (plus NaN); the client only ever
 stores integer points, prizes and millisecond timestamps.
 */
module JsValues {
  import opened Results

  /** A JavaScript number as far as this model needs one: an integer or NaN. */
  datatype JsNumber = Int(i: int) | NaN

  /** A JSON-like JavaScript value, as delivered by `fetch(...).json()` or a socket event. */
  datatype Value =
    | Undefined
    | Null
    | Bool(b: bool)
    | Num(n: JsNumber)
    | Str(s: string)
    | Obj(fields: map<string, Value>)
    | Arr(items: seq<Value>)

  /** The exceptions the modelled code can raise or see. */
  datatype Exception =
    | TypeError     // a property read on null/undefined, or a missing method
    | SyntaxError   // `response.json()` on a body that is not JSON
    | NetworkError  // `fetch` itself rejected

  /** `v == null`, i.e. the values `??` and `?.` skip. */
  predicate IsNullish(v: Value) {
    v.Undefined? || v.Null?
  }

  /** JavaScript truthiness (`!!v`). */
  predicate Truthy(v: Value) {
    match v
    case Undefined => false
    case Null => false
    case Bool(b) => b
    case Num(n) => n.Int? && n.i != 0
    case Str(s) => s != ""
    case Obj(_) => true
    case Arr(_) => true
  }

  /** `a ?? b` */
  function Coalesce(a: Value, b: Value): Value {
    if IsNullish(a) then b else a
  }

  /** `a || b` */
  function Or(a: Value, b: Value): Value {
    if Truthy(a) then a else b
  }

  /**
   `v[key]` on a value that is not null or undefined. Only object records
   carry the data keys the client reads; primitives and arrays have no
   property of those names, so the read gives `undefined`.
   */
  function Member(v: Value, key: string): Value
    requires !IsNullish(v)
  {
    match v
    case Obj(m) => if key in m then m[key] else Undefined
    case _ => Undefined
  }

  /** `v.key`: throws a TypeError on null or undefined. */
  function Get(v: Value, key: string): Result<Value, Exception> {
    if IsNullish(v) then Failure(TypeError) else Success(Member(v, key))
  }

  /** `v?.key`: undefined on null or undefined. */
  function OptionalGet(v: Value, key: string): Value {
    if IsNullish(v) then Undefined else Member(v, key)
  }

  // ---------- decimal text ----------

  predicate IsDigit(c: char) {
    '0' <= c <= '9'
  }

  predicate AllDigits(s: string) {
    forall k :: 0 <= k < |s| ==> IsDigit(s[k])
  }

  function DigitChar(d: nat): char
    requires d < 10
  {
    (('0' as int) + d) as char
  }

  function DigitOf(c: char): nat
    requires IsDigit(c)
  {
    (c as int) - ('0' as int)
  }

  /** The shortest decimal spelling of `n`, as `String(n)` writes it. */
  function NatToDecimal(n: nat): string
    decreases n
  {
    if n < 10 then [DigitChar(n)] else NatToDecimal(n / 10) + [DigitChar(n % 10)]
  }

  /** `String(i)` for an integer: `Number` reads it back as `i`. */
  function IntToDecimal(i: int): (r: string)
    ensures |r| >= 1
    ensures StringToNumber(r) == Int(i)
  {
    var n: nat := if i < 0 then -i else i;
    DecimalRoundTrip(n);
    if i < 0 then
      var r := "-" + NatToDecimal(n);
      assert r[1..] == NatToDecimal(n) && !IsDigit(r[0]);
      r
    else NatToDecimal(n)
  }

  /** The value of a string of decimal digits, most significant first. */
  function DigitsValue(s: string): nat
    requires AllDigits(s)
    decreases |s|
  {
    if |s| == 0 then 0 else 10 * DigitsValue(s[..|s| - 1]) + DigitOf(s[|s| - 1])
  }

  /** `String(n)` is a non-empty digit string that reads back as `n`. */
  lemma {:induction false} DecimalRoundTrip(n: nat)
    ensures |NatToDecimal(n)| >= 1
    ensures AllDigits(NatToDecimal(n))
    ensures DigitsValue(NatToDecimal(n)) == n
    decreases n
  {
    if n >= 10 {
      DecimalRoundTrip(n / 10);
      var s := NatToDecimal(n);
      assert s[..|s| - 1] == NatToDecimal(n / 10);
    }
  }

  /**
   `Number(s)` for the decimal integer spellings: an optional sign followed
   by ASCII digits, and the empty string (which JavaScript reads as 0).
   Every other spelling reads as NaN here.
   */
  function StringToNumber(s: string): (r: JsNumber)
    ensures s == "" ==> r == Int(0)
    ensures (exists k :: 1 <= k < |s| && !IsDigit(s[k])) ==> r.NaN?
    ensures |s| > 0 && !IsDigit(s[0]) && s[0] != '-' && s[0] != '+' ==> r.NaN?
    ensures r.Int? && |s| > 0 && s[0] == '-' ==> r.i <= 0
    ensures r.Int? && !(|s| > 0 && s[0] == '-') ==> r.i >= 0
  {
    if s == "" then Int(0)
    else if AllDigits(s) then Int(DigitsValue(s))
    else if |s| >= 2 && s[0] == '-' && AllDigits(s[1..]) then Int(0 - DigitsValue(s[1..]) as int)
    else if |s| >= 2 && s[0] == '+' && AllDigits(s[1..]) then Int(DigitsValue(s[1..]))
    else NaN
  }

  /** `String(v)` */
  function ToJsString(v: Value): (r: string)
    ensures v.Str? ==> r == v.s
    ensures v.Num? ==> StringToNumber(r) == v.n
    decreases v, 1
  {
    match v
    case Undefined => "undefined"
    case Null => "null"
    case Bool(b) => if b then "true" else "false"
    case Num(n) => if n.NaN? then "NaN" else IntToDecimal(n.i)
    case Str(s) => s
    case Obj(_) => "[object Object]"
    case Arr(items) => JoinElements(v, items)
  }

  /** `items.join(",")`, where null and undefined elements print as "". */
  function JoinElements(ghost whole: Value, items: seq<Value>): string
    requires forall k :: 0 <= k < |items| ==> items[k] < whole
    decreases whole, 0, |items|
  {
    if |items| == 0 then ""
    else
      var last := items[|items| - 1];
      var text := if IsNullish(last) then "" else ToJsString(last);
      if |items| == 1 then text else JoinElements(whole, items[..|items| - 1]) + "," + text
  }

  /** `Number(v)`; objects and arrays go through their string form. */
  function ToNumber(v: Value): (r: JsNumber)
    ensures v.Num? ==> r == v.n
    ensures v.Undefined? || v.Obj? ==> r.NaN?
    ensures v.Null? || v == Str("") || v == Arr([]) ==> r == Int(0)
    ensures v.Bool? ==> r == Int(if v.b then 1 else 0)
  {
    match v
    case Undefined => NaN
    case Null => Int(0)
    case Bool(b) => if b then Int(1) else Int(0)
    case Num(n) => n
    case Str(s) => StringToNumber(s)
    case Obj(_) => StringToNumber(ToJsString(v))
    case Arr(_) => StringToNumber(ToJsString(v))
  }
}

=== FILE: live_board.dfy ===
/**
 The public leaderboard page's state: the player list and the prize table,
 and how each thing the page hears about (the initial fetches and the two
 socket pushes) changes them.
 */
module LiveBoard {
  import opened Results
  import opened JsValues
  import opened Http
  import opened Players
  import opened Prizes
  import opened Board

  /** `players` and `rewards` of `LeaderboardPage`. */
  datatype State = State(players: seq<Player>, rewards: seq<Value>)

  /** Before anything arrives: no players and the default prize table. */
  function Initial(): (s: State)
    ensures s.players == [] && s.rewards == IntPrizes(DefaultPrizes)
    ensures Floored(s.rewards) == DefaultPrizes
  {
    FlooredIntegers(DefaultPrizes);
    State([], IntPrizes(DefaultPrizes))
  }

  /** What the page can hear about, in whatever order it arrives. */
  datatype Event =
    | PrizesFetched(prizes: Outcome)
    | PrizesPushed(payload: Value)
    | Bootstrapped(leaderboard: Outcome, countdown: Outcome)
    | LeaderboardPushed(payload: Value)

  /**
   `bootstrap()`: both fetches must settle; a leaderboard that is not ok
   counts as an empty list; any throw along the way (a rejected fetch, a
   leaderboard body that is not JSON, a record `normalize` cannot read)
   ends in an empty list. The countdown's body is read and discarded.
   */
  function BootstrapPlayers(lb: Outcome, cd: Outcome): (r: seq<Player>)
    ensures lb.Rejected? || cd.Rejected? ==> r == []
    ensures lb.Replied? && !Ok(lb.response) ==> r == []
    ensures r == [] || (lb.Replied? && lb.response.body.Json? && Normalize(lb.response.body.value) == Success(r))
  {
    if lb.Rejected? || cd.Rejected? then []
    else
      var raw := if Ok(lb.response) then ReadJson(lb.response) else Success(Arr([]));
      match raw
      case Failure(_) => []
      case Success(v) =>
        match Normalize(v)
        case Failure(_) => []
        case Success(ps) => ps
  }

  /** The handler for one event. A throw inside a socket handler escapes it and changes nothing. */
  function Step(s: State, e: Event): (r: State)
    ensures (e.PrizesFetched? || e.PrizesPushed?) ==> r.players == s.players
    ensures (e.Bootstrapped? || e.LeaderboardPushed?) ==> r.rewards == s.rewards
  {
    match e
    case PrizesFetched(o) =>
      (match FetchPrizes(o)
       case Success(ps) => s.(rewards := ps)
       case Failure(_) => s)
    case PrizesPushed(p) =>
      (match PushedPrizes(p)
       case Some(ps) => s.(rewards := ps)
       case None => s)
    case Bootstrapped(lb, cd) => s.(players := BootstrapPlayers(lb, cd))
    case LeaderboardPushed(p) =>
      if !p.Arr? then s
      else
        match Normalize(p)
        case Success(ps) => s.(players := ps)
        case Failure(_) => s
  }

  /** The events applied in order of arrival. */
  function Run(s: State, es: seq<Event>): State
    decreases |es|
  {
    if |es| == 0 then s else Run(Step(s, es[0]), es[1..])
  }

  /**
   The page's own prize fetch stores the server's `prizes` array as it
   arrives: of any length and not floored, unlike a socket push. An ok
   answer without such an array, or one that is not ok, resets the table to
   the defaults. A fetch that throws leaves the table as it was.
   */
  lemma FetchedPrizesStoredVerbatim(s: State, o: Outcome)
    ensures FetchPrizes(o).Failure? ==> Step(s, PrizesFetched(o)).rewards == s.rewards
    ensures FetchPrizes(o).Success? ==> Step(s, PrizesFetched(o)).rewards == FetchPrizes(o).value
    ensures o.Replied? && Ok(o.response) && o.response.body.Json? && !OptionalGet(o.response.body.value, "prizes").Arr? ==>
      Step(s, PrizesFetched(o)).rewards == IntPrizes(DefaultPrizes)
    ensures o.Replied? && Ok(o.response) && o.response.body.Json? && o.response.body.value.Obj?
            && "prizes" in o.response.body.value.fields && o.response.body.value.fields["prizes"].Arr? ==>
      Step(s, PrizesFetched(o)).rewards == o.response.body.value.fields["prizes"].items
    ensures o.Replied? && !Ok(o.response) ==> Step(s, PrizesFetched(o)).rewards == IntPrizes(DefaultPrizes)
  {
  }

  /** The default table spelt as strings, as a backend might send it. */
  const StringDefaults: seq<Value> :=
    [Str("175"), Str("100"), Str("70"), Str("50"), Str("35"), Str("25"), Str("15"), Str("10"), Str("10"), Str("10")]

  /**
   A table of ten strings: fetched, it is stored as strings, so no rank
   shows a prize from it; pushed over the socket, it is floored into
   numbers, and every rank shows its prize.
   */
  lemma FetchedStringTableShowsNoPrize(s: State)
    ensures var res := Response(200, Json(Obj(map["prizes" := Arr(StringDefaults)])));
      var fetched := Step(s, PrizesFetched(Replied(res)));
      && fetched.rewards == StringDefaults
      && forall k :: 0 <= k < Slots ==> PrizeAt(fetched.rewards, k).None?
    ensures var pushed := Step(s, PrizesPushed(Arr(StringDefaults)));
      && pushed.rewards == IntPrizes(DefaultPrizes)
      && forall k :: 0 <= k < Slots ==> PrizeAt(pushed.rewards, k) == Some(DefaultPrizes[k])
  {
    var res := Response(200, Json(Obj(map["prizes" := Arr(StringDefaults)])));
    FetchedPrizesStoredVerbatim(s, Replied(res));
    StringDefaultsFloor();
  }

  /** Flooring the string spelling of the defaults gives the defaults. */
  lemma StringDefaultsFloor()
    ensures Floored(StringDefaults) == DefaultPrizes
  {
    var r := Floored(StringDefaults);
    ThreeDigits('1', '7', '5');
    ThreeDigits('1', '0', '0');
    TwoDigits('7', '0'); TwoDigits('5', '0'); TwoDigits('3', '5');
    TwoDigits('2', '5'); TwoDigits('1', '5'); TwoDigits('1', '0');
    assert r[0] == 175 && r[1] == 100 && r[2] == 70 && r[3] == 50 && r[4] == 35;
    assert r[5] == 25 && r[6] == 15 && r[7] == 10 && r[8] == 10 && r[9] == 10;
  }

  /** A two-digit string is floored to its decimal value. */
  lemma TwoDigits(a: char, b: char)
    requires IsDigit(a) && IsDigit(b) && a != '0'
    ensures PrizeValue(Str([a, b])) == 10 * DigitOf(a) + DigitOf(b)
  {
    assert [a, b][..1] == [a];
    assert [a][..0] == [];
    assert AllDigits([a, b]);
    assert DigitsValue([a]) == DigitOf(a);
    assert DigitsValue([a, b]) == 10 * DigitOf(a) + DigitOf(b);
    assert StringToNumber([a, b]) == Int(10 * DigitOf(a) + DigitOf(b));
  }

  /** A three-digit string is floored to its decimal value. */
  lemma ThreeDigits(a: char, b: char, c: char)
    requires IsDigit(a) && IsDigit(b) && IsDigit(c) && a != '0'
    ensures PrizeValue(Str([a, b, c])) == 100 * DigitOf(a) + 10 * DigitOf(b) + DigitOf(c)
  {
    assert [a, b, c][..2] == [a, b];
    assert [a, b][..1] == [a];
    assert [a][..0] == [];
    assert AllDigits([a, b, c]);
    assert DigitsValue([a]) == DigitOf(a);
    assert DigitsValue([a, b]) == 10 * DigitOf(a) + DigitOf(b);
    assert DigitsValue([a, b, c]) == 100 * DigitOf(a) + 10 * DigitOf(b) + DigitOf(c);
    assert StringToNumber([a, b, c]) == Int(100 * DigitOf(a) + 10 * DigitOf(b) + DigitOf(c));
  }

  /** Handling `a` and then `b` is handling the events of `a + b` in arrival order. */
  lemma {:induction false} RunConcat(s: State, a: seq<Event>, b: seq<Event>)
    ensures Run(s, a + b) == Run(Run(s, a), b)
    decreases |a|
  {
    if |a| > 0 {
      assert (a + b)[0] == a[0];
      assert (a + b)[1..] == a[1..] + b;
      RunConcat(Step(s, a[0]), a[1..], b);
    } else {
      assert a + b == b;
    }
  }

  predicate AllCanonical(ps: seq<Player>) {
    forall p :: p in ps ==> Canonical(p)
  }

  /**
   Bootstrapping yields players only from an ok leaderboard whose JSON body
   is an array of readable records, and then exactly their normalized form;
   every other outcome yields no players.
   */
  lemma BootstrapOutcomes(lb: Outcome, cd: Outcome)
    ensures var ok := lb.Replied? && cd.Replied? && Ok(lb.response) && lb.response.body.Json?
              && Normalize(lb.response.body.value).Success?;
      && (ok ==> BootstrapPlayers(lb, cd) == Normalize(lb.response.body.value).value)
      && (!ok ==> BootstrapPlayers(lb, cd) == [])
    ensures AllCanonical(BootstrapPlayers(lb, cd))
  {
    if lb.Replied? && cd.Replied? && Ok(lb.response) && lb.response.body.Json? {
      NormalizeShape(lb.response.body.value);
    }
  }

  /** Neither the status nor the body of the countdown response affects the players. */
  lemma BootstrapIgnoresCountdownBody(lb: Outcome, a: Response, b: Response)
    ensures BootstrapPlayers(lb, Replied(a)) == BootstrapPlayers(lb, Replied(b))
  {
  }

  /** Every event keeps every player in the canonical shape `normalize` produces. */
  lemma StepKeepsCanonical(s: State, e: Event)
    requires AllCanonical(s.players)
    ensures AllCanonical(Step(s, e).players)
  {
    match e
    case Bootstrapped(lb, cd) => BootstrapOutcomes(lb, cd);
    case LeaderboardPushed(p) => NormalizeShape(p);
    case _ =>
  }

  /** From the initial state on, whatever arrives, every player shown is canonical. */
  lemma {:induction false} RunKeepsCanonical(s: State, es: seq<Event>)
    requires AllCanonical(s.players)
    ensures AllCanonical(Run(s, es).players)
    decreases |es|
  {
    if |es| > 0 {
      StepKeepsCanonical(s, es[0]);
      RunKeepsCanonical(Step(s, es[0]), es[1..]);
    }
  }

  /**
   A leaderboard push is taken exactly when it is an array of readable
   records, and then replaces the list outright, whatever came before; an
   empty array clears the board.
   */
  lemma LeaderboardPushReplaces(s: State, p: Value)
    ensures Step(s, LeaderboardPushed(p)).players ==
      if p.Arr? && Normalize(p).Success? then Normalize(p).value else s.players
    ensures p == Arr([]) ==> Step(s, LeaderboardPushed(p)).players == []
  {
  }

  /** A push of an array holding `null` or `undefined` throws inside the handler and is ignored. */
  lemma NullRecordPushIgnored(s: State, items: seq<Value>, k: nat)
    requires k < |items| && IsNullish(items[k])
    ensures Step(s, LeaderboardPushed(Arr(items))) == s
  {
    NormalizeShape(Arr(items));
  }

  /** A prize push is taken exactly when it is an array of ten, and is then stored floored. */
  lemma PrizePushNeedsTen(s: State, p: Value)
    ensures Step(s, PrizesPushed(p)).rewards ==
      if p.Arr? && |p.items| == 10 then IntPrizes(Floored(p.items)) else s.rewards
  {
  }

  /** An accepted leaderboard push stands until the next leaderboard event, whatever prize events follow it. */
  lemma {:induction false} PushStandsThroughPrizeEvents(s: State, p: Value, rest: seq<Event>)
    requires p.Arr? && Normalize(p).Success?
    requires forall k :: 0 <= k < |rest| ==> rest[k].PrizesFetched? || rest[k].PrizesPushed?
    ensures Run(s, [LeaderboardPushed(p)] + rest).players == Normalize(p).value
    ensures Run(s, [LeaderboardPushed(p)] + rest).rewards == Run(s, rest).rewards
    decreases |rest|
  {
    PrizeEventsKeepPlayers(Step(s, LeaderboardPushed(p)), rest);
    PrizeEventsIgnorePlayers(s, Normalize(p).value, rest);
    assert ([LeaderboardPushed(p)] + rest)[1..] == rest;
  }

  /** A run of prize events leaves the players as they were. */
  lemma {:induction false} PrizeEventsKeepPlayers(s: State, es: seq<Event>)
    requires forall k :: 0 <= k < |es| ==> es[k].PrizesFetched? || es[k].PrizesPushed?
    ensures Run(s, es).players == s.players
    decreases |es|
  {
    if |es| > 0 {
      PrizeEventsKeepPlayers(Step(s, es[0]), es[1..]);
    }
  }

  /** The prize table a run of prize events ends with does not depend on the players. */
  lemma {:induction false} PrizeEventsIgnorePlayers(s: State, ps: seq<Player>, es: seq<Event>)
    requires forall k :: 0 <= k < |es| ==> es[k].PrizesFetched? || es[k].PrizesPushed?
    ensures Run(s.(players := ps), es).rewards == Run(s, es).rewards
    decreases |es|
  {
    if |es| > 0 {
      assert Step(s.(players := ps), es[0]) == Step(s, es[0]).(players := ps);
      PrizeEventsIgnorePlayers(Step(s, es[0]), ps, es[1..]);
    }
  }
}

=== FILE: players.dfy ===
/**
 `normalize` of the leaderboard page: raw player records of drifting shape
 become canonical `{id, name, avatar, points}` records. Each field is the
 first present (non-null, non-undefined) value among a list of synonym keys,
 with a positional fallback.
 */
module Players {
  import opened Results
  import opened JsValues

  /** The canonical player record the leaderboard renders. */
  datatype Player = Player(id: string, name: string, avatar: Value, points: JsNumber)

  const IdKeys: seq<string> := ["id", "uuid", "user_id", "userId"]
  const NameKeys: seq<string> := ["name", "username", "displayName"]
  const AvatarKeys: seq<string> := ["avatar", "steam_avatar", "image"]
  const PointsKeys: seq<string> := ["points", "wagered", "wager", "total"]

  /** `keys[k]` is the first key of `u` whose value is present. */
  ghost predicate FirstPresentAt(u: Value, keys: seq<string>, k: int)
    requires !IsNullish(u)
  {
    && 0 <= k < |keys|
    && !IsNullish(Member(u, keys[k]))
    && forall j :: 0 <= j < k ==> IsNullish(Member(u, keys[j]))
  }

  /** None of `keys` holds a present value in `u`. */
  ghost predicate NonePresent(u: Value, keys: seq<string>)
    requires !IsNullish(u)
  {
    forall j :: 0 <= j < |keys| ==> IsNullish(Member(u, keys[j]))
  }

  /** `u[keys[0]] ?? u[keys[1]] ?? ... ?? fallback`; nullish only when it falls back. */
  function Pick(u: Value, keys: seq<string>, fallback: Value): (r: Value)
    requires !IsNullish(u)
    ensures IsNullish(r) ==> r == fallback
    decreases |keys|
  {
    if |keys| == 0 then fallback else Coalesce(Member(u, keys[0]), Pick(u, keys[1..], fallback))
  }

  /** Pick returns the value of the first present key, or the fallback when none is present. */
  lemma {:induction false} PickFirstPresent(u: Value, keys: seq<string>, fallback: Value)
    requires !IsNullish(u)
    ensures (exists k :: FirstPresentAt(u, keys, k) && Pick(u, keys, fallback) == Member(u, keys[k]))
            || (NonePresent(u, keys) && Pick(u, keys, fallback) == fallback)
    decreases |keys|
  {
    if |keys| > 0 {
      var r := Pick(u, keys, fallback);
      if !IsNullish(Member(u, keys[0])) {
        assert FirstPresentAt(u, keys, 0);
      } else {
        PickFirstPresent(u, keys[1..], fallback);
        assert r == Pick(u, keys[1..], fallback);
        if NonePresent(u, keys[1..]) && r == fallback {
          assert NonePresent(u, keys) by {
            forall j | 0 <= j < |keys| ensures IsNullish(Member(u, keys[j])) {
              if j > 0 { assert keys[j] == keys[1..][j - 1]; }
            }
          }
        } else {
          var k :| FirstPresentAt(u, keys[1..], k) && r == Member(u, keys[1..][k]);
          assert FirstPresentAt(u, keys, k + 1) by {
            forall j | 0 <= j < k + 1 ensures IsNullish(Member(u, keys[j])) {
              if j > 0 { assert keys[j] == keys[1..][j - 1]; }
            }
          }
        }
      }
    }
  }

  /** Pick over four keys is the source's left-nested chain of `??`. */
  lemma PickIsNullishChain(u: Value, a: string, b: string, c: string, d: string, fallback: Value)
    requires !IsNullish(u)
    ensures Pick(u, [a, b, c, d], fallback)
            == Coalesce(Coalesce(Coalesce(Coalesce(Member(u, a), Member(u, b)), Member(u, c)), Member(u, d)), fallback)
  {
    var keys := [a, b, c, d];
    assert keys[1..] == [b, c, d];
    assert [b, c, d][1..] == [c, d];
    assert [c, d][1..] == [d];
    assert [d][1..] == [];
    assert Pick(u, [d], fallback) == Coalesce(Member(u, d), fallback);
    assert Pick(u, [c, d], fallback) == Coalesce(Member(u, c), Pick(u, [d], fallback));
    assert Pick(u, [b, c, d], fallback) == Coalesce(Member(u, b), Pick(u, [c, d], fallback));
    assert Pick(u, keys, fallback) == Coalesce(Member(u, a), Pick(u, [b, c, d], fallback));
  }

  /** A record the page can render: the avatar is a value or null, never undefined. */
  predicate Canonical(p: Player) {
    !p.avatar.Undefined?
  }

  /** The record built for a non-null element `u` at index `i`. */
  function Canonicalize(u: Value, i: nat): (p: Player)
    requires !IsNullish(u)
    ensures Canonical(p)
    ensures NonePresent(u, IdKeys) ==> p.id == IntToDecimal(i)
    ensures NonePresent(u, NameKeys) ==> p.name == "Player " + IntToDecimal(i + 1)
    ensures NonePresent(u, PointsKeys) ==> p.points == Int(0)
  {
    Player(
      ToJsString(Pick(u, IdKeys, Num(Int(i)))),
      ToJsString(Pick(u, NameKeys, Str("Player " + IntToDecimal(i + 1)))),
      Pick(u, AvatarKeys, Null),
      ToNumber(Pick(u, PointsKeys, Num(Int(0)))))
  }

  /** The `i`-th element of `arr.map((u, i) => ...)`: reading a key of null or undefined throws. */
  function NormalizeRecord(u: Value, i: nat): (r: Result<Player, Exception>)
    ensures r.Failure? <==> IsNullish(u)
    ensures r.Failure? ==> r.error == TypeError
    ensures r.Success? ==> Canonical(r.value)
  {
    if IsNullish(u) then Failure(TypeError) else Success(Canonicalize(u, i))
  }

  /** A `??` chain is the value of the first present key, or the fallback when none is present. */
  lemma PickRule(u: Value, keys: seq<string>, fallback: Value)
    requires !IsNullish(u)
    ensures forall k :: FirstPresentAt(u, keys, k) ==> Pick(u, keys, fallback) == Member(u, keys[k])
    ensures NonePresent(u, keys) ==> Pick(u, keys, fallback) == fallback
  {
    PickFirstPresent(u, keys, fallback);
    FirstPresentUnique(u, keys);
  }

  /** The field rules: each field is the first present synonym, else its fallback. */
  lemma FieldRules(u: Value, i: nat)
    requires !IsNullish(u)
    ensures var p := NormalizeRecord(u, i).value;
      && (forall k :: FirstPresentAt(u, IdKeys, k) ==> p.id == ToJsString(Member(u, IdKeys[k])))
      && (NonePresent(u, IdKeys) ==> p.id == IntToDecimal(i))
      && (forall k :: FirstPresentAt(u, NameKeys, k) ==> p.name == ToJsString(Member(u, NameKeys[k])))
      && (NonePresent(u, NameKeys) ==> p.name == "Player " + IntToDecimal(i + 1))
      && (forall k :: FirstPresentAt(u, AvatarKeys, k) ==> p.avatar == Member(u, AvatarKeys[k]))
      && (NonePresent(u, AvatarKeys) ==> p.avatar == Null)
      && (forall k :: FirstPresentAt(u, PointsKeys, k) ==> p.points == ToNumber(Member(u, PointsKeys[k])))
      && (NonePresent(u, PointsKeys) ==> p.points == Int(0))
  {
    var ids, names, avatars, points := IdKeys, NameKeys, AvatarKeys, PointsKeys;
    var p := NormalizeRecord(u, i).value;
    assert p == Canonicalize(u, i);
    PickRule(u, ids, Num(Int(i)));
    PickRule(u, names, Str("Player " + IntToDecimal(i + 1)));
    PickRule(u, avatars, Null);
    PickRule(u, points, Num(Int(0)));
  }

  /** At most one index is the first present one, and it excludes "none present". */
  lemma FirstPresentUnique(u: Value, keys: seq<string>)
    requires !IsNullish(u)
    ensures forall k, k' :: FirstPresentAt(u, keys, k) && FirstPresentAt(u, keys, k') ==> k == k'
    ensures forall k :: FirstPresentAt(u, keys, k) ==> !NonePresent(u, keys)
  {
  }

  /** `arr.map(...)` over the elements; any null or undefined element makes it throw. */
  function NormalizeAll(items: seq<Value>): (r: Result<seq<Player>, Exception>)
    ensures r.Success? <==> forall k :: 0 <= k < |items| ==> !IsNullish(items[k])
    ensures r.Failure? ==> r.error == TypeError
    ensures r.Success? ==> |r.value| == |items|
    ensures r.Success? ==> forall k :: 0 <= k < |items| ==> NormalizeRecord(items[k], k) == Success(r.value[k])
  {
    if exists k :: 0 <= k < |items| && IsNullish(items[k]) then Failure(TypeError)
    else Success(seq(|items|, k requires 0 <= k < |items| => Canonicalize(items[k], k)))
  }

  /** `normalize(arr)`: anything but an array yields the empty list. */
  function Normalize(arr: Value): (r: Result<seq<Player>, Exception>)
    ensures !arr.Arr? ==> r == Success([])
    ensures arr.Arr? ==> r == NormalizeAll(arr.items)
  {
    if arr.Arr? then NormalizeAll(arr.items) else Success([])
  }

  /** Whether normalization succeeds, and the length and per-element shape of its output. */
  lemma NormalizeShape(arr: Value)
    ensures Normalize(arr).Success? <==> (arr.Arr? ==> forall k :: 0 <= k < |arr.items| ==> !IsNullish(arr.items[k]))
    ensures Normalize(arr).Success? && arr.Arr? ==>
      && |Normalize(arr).value| == |arr.items|
      && forall k :: 0 <= k < |arr.items| ==> Success(Normalize(arr).value[k]) == NormalizeRecord(arr.items[k], k)
    ensures forall p :: Normalize(arr).Success? && p in Normalize(arr).value ==> Canonical(p)
  {
    if arr.Arr? && Normalize(arr).Success? {
      var ps := Normalize(arr).value;
      forall p | p in ps ensures Canonical(p) {
        var k :| 0 <= k < |ps| && ps[k] == p;
        assert NormalizeRecord(arr.items[k], k) == Success(p);
      }
    }
  }

  // ---------- idempotence ----------

  /** The JavaScript object `{id, name, avatar, points}` a canonical record is. */
  function ToRaw(p: Player): Value {
    Obj(map["id" := Str(p.id), "name" := Str(p.name), "avatar" := p.avatar, "points" := Num(p.points)])
  }

  /** The array of objects `normalize` returns. */
  function RawList(ps: seq<Player>): (r: Value)
    ensures r.Arr? && |r.items| == |ps|
    ensures forall k :: 0 <= k < |ps| ==> r.items[k] == ToRaw(ps[k])
  {
    Arr(seq(|ps|, k requires 0 <= k < |ps| => ToRaw(ps[k])))
  }

  /** Normalizing a canonical record again, at any position, gives it back. */
  lemma RecordIdempotent(p: Player, i: nat)
    requires Canonical(p)
    ensures NormalizeRecord(ToRaw(p), i) == Success(p)
  {
    var u := ToRaw(p);
    assert Member(u, "id") == Str(p.id);
    assert Member(u, "name") == Str(p.name);
    assert Member(u, "avatar") == p.avatar;
    assert Member(u, "points") == Num(p.points);
    if p.avatar.Null? {
      assert Member(u, "steam_avatar") == Undefined;
      assert Member(u, "image") == Undefined;
      assert AvatarKeys[1..] == ["steam_avatar", "image"];
      assert AvatarKeys[1..][1..] == ["image"];
      assert AvatarKeys[1..][1..][1..] == [];
    }
  }

  /** `normalize(normalize(x))` equals `normalize(x)` whenever the first call returns. */
  lemma NormalizeIdempotent(arr: Value)
    requires Normalize(arr).Success?
    ensures Normalize(RawList(Normalize(arr).value)) == Normalize(arr)
  {
    var ps := Normalize(arr).value;
    NormalizeShape(arr);
    var raw := RawList(ps);
    forall k | 0 <= k < |raw.items| ensures !IsNullish(raw.items[k]) {
    }
    var again := NormalizeAll(raw.items);
    assert again.Success?;
    forall k | 0 <= k < |ps| ensures again.value[k] == ps[k] {
      RecordIdempotent(ps[k], k);
    }
    assert again.value == ps;
  }

  // ---------- examples ----------

  /** A record whose id, name and points are present but falsy. */
  const FalsyRecord: Value := Obj(map["id" := Num(Int(0)), "name" := Str(""), "points" := Num(Int(0))])

  lemma FalsyRecordPicks()
    ensures Pick(FalsyRecord, IdKeys, Num(Int(4))) == Num(Int(0))
    ensures Pick(FalsyRecord, NameKeys, Str("Player " + IntToDecimal(5))) == Str("")
    ensures Pick(FalsyRecord, AvatarKeys, Null) == Null
    ensures Pick(FalsyRecord, PointsKeys, Num(Int(0))) == Num(Int(0))
  {
    var u := FalsyRecord;
    assert Member(u, "id") == Num(Int(0));
    assert Member(u, "name") == Str("");
    assert Member(u, "points") == Num(Int(0));
    assert Pick(u, AvatarKeys, Null) == Null by {
      assert Member(u, "avatar") == Undefined;
      assert Member(u, "steam_avatar") == Undefined;
      assert Member(u, "image") == Undefined;
      assert AvatarKeys[1..] == ["steam_avatar", "image"];
      assert AvatarKeys[1..][1..] == ["image"];
      assert AvatarKeys[1..][1..][1..] == [];
    }
  }

  /** Present but falsy values (0, "") are kept: the chain tests for null, not falsiness. */
  lemma FalsyFieldsKept()
    ensures NormalizeRecord(FalsyRecord, 4) == Success(Player("0", "", Null, Int(0)))
  {
    FalsyRecordPicks();
    assert ToJsString(Num(Int(0))) == "0" by {
      assert NatToDecimal(0) == "0";
    }
  }

  /** The wager record of `CommaWagerIsNaN`. */
  const CommaWager: Value := Obj(map["uuid" := Str("a"), "username" := Str("X"), "wager" := Str("12,50")])

  lemma CommaWagerIdAndName(idFallback: Value, nameFallback: Value)
    ensures Pick(CommaWager, IdKeys, idFallback) == Str("a")
    ensures Pick(CommaWager, NameKeys, nameFallback) == Str("X")
  {
    var u := CommaWager;
    assert Pick(u, IdKeys, idFallback) == Str("a") by {
      assert Member(u, "id") == Undefined;
      assert Member(u, "uuid") == Str("a");
      assert IdKeys[1..] == ["uuid", "user_id", "userId"];
    }
    assert Member(u, "name") == Undefined;
    assert Member(u, "username") == Str("X");
    assert NameKeys[1..] == ["username", "displayName"];
  }

  lemma CommaWagerAvatarAndPoints(pointsFallback: Value)
    ensures Pick(CommaWager, AvatarKeys, Null) == Null
    ensures Pick(CommaWager, PointsKeys, pointsFallback) == Str("12,50")
  {
    var u := CommaWager;
    assert Pick(u, AvatarKeys, Null) == Null by {
      assert Member(u, "avatar") == Undefined;
      assert Member(u, "steam_avatar") == Undefined;
      assert Member(u, "image") == Undefined;
      assert AvatarKeys[1..] == ["steam_avatar", "image"];
      assert AvatarKeys[1..][1..] == ["image"];
      assert AvatarKeys[1..][1..][1..] == [];
    }
    assert Member(u, "points") == Undefined;
    assert Member(u, "wagered") == Undefined;
    assert Member(u, "wager") == Str("12,50");
    assert PointsKeys[1..] == ["wagered", "wager", "total"];
    assert PointsKeys[1..][1..] == ["wager", "total"];
  }

  /**
   A record with only `uuid`, `username` and a comma-decimal `wager`:
   `Number("12,50")` is NaN, so the points are NaN.
   */
  lemma CommaWagerIsNaN()
    ensures Normalize(Arr([CommaWager])) == Success([Player("a", "X", Null, NaN)])
  {
    var p := Player("a", "X", Null, NaN);
    CommaWagerIdAndName(Num(Int(0)), Str("Player " + IntToDecimal(1)));
    CommaWagerAvatarAndPoints(Num(Int(0)));
    assert ToNumber(Str("12,50")) == NaN by {
      assert !IsDigit("12,50"[2]);
    }
    assert Canonicalize(CommaWager, 0) == p;
    var r := NormalizeAll([CommaWager]);
    assert NormalizeRecord(CommaWager, 0) == Success(p);
    assert r.Success? && |r.value| == 1 && r.value[0] == p;
    assert r.value == [p];
  }
}

=== FILE: prizes.dfy ===
/**
 The prize table: the default list, `fetchPrizes`, the flooring applied to
 pushed and loaded tables, and the admin editor's single-cell update.
 */
module Prizes {
  import opened Results
  import opened JsValues
  import opened Http

  /** The table used until the backend supplies one, and whenever it cannot. */
  const DefaultPrizes: seq<int> := [175, 100, 70, 50, 35, 25, 15, 10, 10, 10]

  /** A table of integers as the JavaScript array of numbers the page holds. */
  function IntPrizes(prizes: seq<int>): (r: seq<Value>)
    ensures |r| == |prizes|
    ensures forall k :: 0 <= k < |prizes| ==> r[k] == Num(Int(prizes[k]))
  {
    seq(|prizes|, k requires 0 <= k < |prizes| => Num(Int(prizes[k])))
  }

  /**
   `fetchPrizes()`: the default table when the response is not ok or its
   `prizes` is not an array; otherwise the server's array as it is, of any
   length. A rejected fetch or a body that is not JSON makes it throw.
   */
  function FetchPrizes(o: Outcome): (r: Result<seq<Value>, Exception>)
    ensures r.Failure? <==> o.Rejected? || (Ok(o.response) && o.response.body.NotJson?)
    ensures r.Success? && !Ok(o.response) ==> r.value == IntPrizes(DefaultPrizes)
    ensures r.Success? && Ok(o.response) ==>
      var p := OptionalGet(o.response.body.value, "prizes");
      r.value == if p.Arr? then p.items else IntPrizes(DefaultPrizes)
  {
    match o
    case Rejected => Failure(NetworkError)
    case Replied(res) =>
      if !Ok(res) then Success(IntPrizes(DefaultPrizes))
      else
        match ReadJson(res)
        case Failure(e) => Failure(e)
        case Success(j) =>
          var p := OptionalGet(j, "prizes");
          Success(if p.Arr? then p.items else IntPrizes(DefaultPrizes))
  }

  /** `Math.floor(Number(n) || 0)`: NaN and zero give 0, any other integer itself. */
  function PrizeValue(v: Value): (r: int)
    ensures v.Num? && v.n.Int? ==> r == v.n.i
    ensures IsNullish(v) || v.Obj? || v == Str("") || v == Num(NaN) ==> r == 0
    ensures ToNumber(v).Int? && ToNumber(v).i >= 0 ==> r >= 0
  {
    match ToNumber(v)
    case NaN => 0
    case Int(i) => i
  }

  /** `arr.map(n => Math.floor(Number(n) || 0))` */
  function Floored(ps: seq<Value>): (r: seq<int>)
    ensures |r| == |ps|
    ensures forall k :: 0 <= k < |ps| ==> r[k] == PrizeValue(ps[k])
  {
    seq(|ps|, k requires 0 <= k < |ps| => PrizeValue(ps[k]))
  }

  /** Flooring an integer table changes nothing. */
  lemma FlooredIntegers(prizes: seq<int>)
    ensures Floored(IntPrizes(prizes)) == prizes
  {
    var r := Floored(IntPrizes(prizes));
    assert forall k :: 0 <= k < |prizes| ==> r[k] == prizes[k];
  }

  /**
   The `prizes:update` handler: only an array of exactly ten entries is
   taken, each entry floored; anything else leaves the table alone.
   */
  function PushedPrizes(payload: Value): (r: Option<seq<Value>>)
    ensures r.Some? <==> payload.Arr? && |payload.items| == 10
    ensures r.Some? ==> r.value == IntPrizes(Floored(payload.items))
  {
    if payload.Arr? && |payload.items| == 10 then Some(IntPrizes(Floored(payload.items))) else None
  }

  /** The prize editor's `onChange` for cell `idx`: `Math.max(0, Math.floor(Number(text) || 0))`. */
  function EditPrize(prizes: seq<int>, idx: nat, text: string): (r: seq<int>)
    requires idx < |prizes|
    ensures |r| == |prizes|
    ensures r[idx] >= 0
    ensures r[idx] == if PrizeValue(Str(text)) > 0 then PrizeValue(Str(text)) else 0
    ensures forall k :: 0 <= k < |prizes| && k != idx ==> r[k] == prizes[k]
  {
    var v := PrizeValue(Str(text));
    prizes[idx := if v > 0 then v else 0]
  }

  /** An edit keeps a table of non-negative prizes non-negative. */
  lemma EditKeepsNonNegative(prizes: seq<int>, idx: nat, text: string)
    requires idx < |prizes|
    requires forall k :: 0 <= k < |prizes| ==> prizes[k] >= 0
    ensures forall k :: 0 <= k < |prizes| ==> EditPrize(prizes, idx, text)[k] >= 0
  {
  }

  /** Typing the decimal spelling of a non-negative integer stores exactly that integer. */
  lemma EditStoresTypedNumber(prizes: seq<int>, idx: nat, n: nat)
    requires idx < |prizes|
    ensures EditPrize(prizes, idx, NatToDecimal(n))[idx] == n
  {
    DecimalRoundTrip(n);
  }

  /** Typing `abc`, clearing the field, or typing `-5` all store 0. */
  lemma EditNonNumberStoresZero(prizes: seq<int>, idx: nat)
    requires idx < |prizes|
    ensures EditPrize(prizes, idx, "abc")[idx] == 0
    ensures EditPrize(prizes, idx, "")[idx] == 0
    ensures EditPrize(prizes, idx, "-5")[idx] == 0
  {
    assert !IsDigit("abc"[0]);
    assert "-5"[1..] == "5" && AllDigits("5") && DigitsValue("5") == 5 by {
      assert "5"[..0] == "";
    }
  }

  /** Edits of different cells commute; a second edit of the same cell overrides the first. */
  lemma EditsCommute(prizes: seq<int>, i: nat, j: nat, a: string, b: string)
    requires i < |prizes| && j < |prizes|
    ensures i != j ==> EditPrize(EditPrize(prizes, i, a), j, b) == EditPrize(EditPrize(prizes, j, b), i, a)
    ensures EditPrize(EditPrize(prizes, i, a), i, b) == EditPrize(prizes, i, b)
  {
  }

  /** The admin panel's table after loading: the floored server table, or unchanged when loading throws. */
  function LoadedPrizes(current: seq<int>, o: Outcome): (r: seq<int>)
    ensures FetchPrizes(o).Failure? ==> r == current
    ensures FetchPrizes(o).Success? ==> r == Floored(FetchPrizes(o).value)
  {
    match FetchPrizes(o)
    case Failure(_) => current
    case Success(ps) => Floored(ps)
  }

  /** A non-ok prize response loads the default table into the admin editor. */
  lemma LoadedDefaultsOnError(current: seq<int>, res: Response)
    requires !Ok(res)
    ensures LoadedPrizes(current, Replied(res)) == DefaultPrizes
  {
    FlooredIntegers(DefaultPrizes);
  }
}

=== FILE: results.dfy ===
/** Optional values and the outcome of an operation that may throw. */
module Results {

  /** A value that may be absent (JavaScript `undefined` for a missing setting). */
  datatype Option<+T> = None | Some(value: T)

  /** What a JavaScript operation produces: a value, or the exception it throws. */
  datatype Result<+T, +E> = Success(value: T) | Failure(error: E)
}

=== FILE: session.dfy ===
/**
 The admin token: where each admin screen keeps it (the `admin_token`
 entry of local storage, the login field, the token the gate passes in),
 logging in and out, and the `x-admin-token` header the requests carry.
 */
module Session {
  import opened Results

  /** The header every authenticated request carries. */
  const TokenHeader: string := "x-admin-token"

  /** `getAdminToken()`: the stored token, or "" when there is none. */
  function GetAdminToken(stored: Option<string>): (t: string)
    ensures t == "" <==> stored.None? || stored == Some("")
    ensures t != "" ==> stored == Some(t)
  {
    if stored.Some? then stored.value else ""
  }

  /** `setAdminToken(token)`: a non-empty token is stored, the empty one removes the entry. */
  function SetAdminToken(token: string): (stored: Option<string>)
    ensures GetAdminToken(stored) == token
    ensures stored.None? <==> token == ""
  {
    if token != "" then Some(token) else None
  }

  /**
   One admin screen's login state. `prop` is the token the gate passes to
   the panel ("" when there is none, and always "" on the older admin page);
   `stored` is local storage; `typed` is the login field (`tokenLocal` in
   the panel, `token` on the older page).
   */
  datatype Auth = Auth(prop: string, stored: Option<string>, typed: string, hasAuth: bool)

  /** Mounting a screen: the field starts with `prop || getAdminToken()`, logged in when that is non-empty. */
  function Mount(prop: string, stored: Option<string>): (a: Auth)
    ensures a.prop == prop && a.stored == stored
    ensures a.typed == (if prop != "" then prop else GetAdminToken(stored))
    ensures a.hasAuth <==> a.typed != ""
  {
    var t := if prop != "" then prop else GetAdminToken(stored);
    Auth(prop, stored, t, t != "")
  }

  /** Typing into the login field, which is only shown while logged out. */
  function Type(a: Auth, text: string): (r: Auth)
    ensures a.hasAuth ==> r == a
    ensures !a.hasAuth ==> r == a.(typed := text)
  {
    if a.hasAuth then a else a.(typed := text)
  }

  /** `saveToken()`: an empty field does nothing; otherwise the field is stored and the screen logged in. */
  function SaveToken(a: Auth): (r: Auth)
    ensures a.typed == "" ==> r == a
    ensures a.typed != "" ==> r.hasAuth && GetAdminToken(r.stored) == a.typed
    ensures r.prop == a.prop && r.typed == a.typed
  {
    if a.typed == "" then a else a.(stored := SetAdminToken(a.typed), hasAuth := true)
  }

  /** `logout()`: storage and field are cleared and the screen logged out; the gate's token stays. */
  function Logout(a: Auth): (r: Auth)
    ensures !r.hasAuth && r.typed == "" && GetAdminToken(r.stored) == "" && r.stored.None?
    ensures r.prop == a.prop && EffectiveToken(r) == a.prop
  {
    a.(stored := SetAdminToken(""), typed := "", hasAuth := false)
  }

  /** The admin panel's `effectiveToken || ''`: the gate's token first, then the field. */
  function EffectiveToken(a: Auth): (t: string)
    ensures a.prop != "" ==> t == a.prop
    ensures a.prop == "" ==> t == a.typed
  {
    if a.prop != "" then a.prop else a.typed
  }

  /** The two admin screens: the panel the gate loads, and the older page in the main bundle. */
  datatype Screen = AdminPanel | AdminPage

  /** The token a screen's requests send: the panel's effective token; the older page reads storage at call time. */
  function RequestToken(screen: Screen, a: Auth): (t: string)
    ensures screen.AdminPanel? && a.prop != "" ==> t == a.prop
    ensures screen.AdminPanel? && a.prop == "" ==> t == a.typed
    ensures screen.AdminPage? ==> t == GetAdminToken(a.stored)
  {
    match screen
    case AdminPanel => EffectiveToken(a)
    case AdminPage => GetAdminToken(a.stored)
  }

  /**
   `{ ...(init.headers || {}), 'x-admin-token': token }`: the caller's
   headers with the token header added, or overriding the caller's own.
   */
  function AuthedHeaders(caller: map<string, string>, token: string): (h: map<string, string>)
    ensures TokenHeader in h && h[TokenHeader] == token
    ensures h.Keys == caller.Keys + {TokenHeader}
    ensures forall k :: k in caller && k != TokenHeader ==> h[k] == caller[k]
  {
    caller[TokenHeader := token]
  }

  /** What happens on the login form and the logout button. */
  datatype Action = Typed(text: string) | SaveClicked | LogoutClicked

  function Apply(a: Auth, act: Action): Auth {
    match act
    case Typed(text) => Type(a, text)
    case SaveClicked => SaveToken(a)
    case LogoutClicked => Logout(a)
  }

  function ApplyAll(a: Auth, acts: seq<Action>): Auth
    decreases |acts|
  {
    if |acts| == 0 then a else ApplyAll(Apply(a, acts[0]), acts[1..])
  }

  /**
   While logged in on a screen without a gate token, the field holds
   exactly the stored token, so both screens' requests send the same
   non-empty token.
   */
  predicate Consistent(a: Auth) {
    a.prop == "" && (a.hasAuth ==> a.typed != "" && a.stored == Some(a.typed))
  }

  /** Mounting without a gate token, and every login-form action after it, keeps the screens consistent. */
  lemma {:induction false} ConsistentThroughout(stored: Option<string>, acts: seq<Action>)
    ensures Consistent(ApplyAll(Mount("", stored), acts))
    ensures var a := ApplyAll(Mount("", stored), acts);
      a.hasAuth ==> RequestToken(AdminPanel, a) == RequestToken(AdminPage, a) != ""
  {
    ActionsKeepConsistent(Mount("", stored), acts);
  }

  lemma {:induction false} ActionsKeepConsistent(a: Auth, acts: seq<Action>)
    requires Consistent(a)
    ensures Consistent(ApplyAll(a, acts))
    decreases |acts|
  {
    if |acts| > 0 {
      ActionsKeepConsistent(Apply(a, acts[0]), acts[1..]);
    }
  }

  /** Logging in and mounting the screen again later restores the token and the logged-in state. */
  lemma LoginPersists(a: Auth, text: string)
    requires !a.hasAuth && text != ""
    ensures var again := Mount("", SaveToken(Type(a, text)).stored);
      again.typed == text && again.hasAuth
  {
  }

  /** After logging out, a screen mounted again without a gate token starts logged out with an empty field. */
  lemma LogoutPersists(a: Auth)
    ensures Mount("", Logout(a).stored) == Auth("", None, "", false)
  {
  }

  /**
   Under the gate, logging out of the panel does not change the token its
   requests send: the gate's token still overrides the cleared field.
   */
  lemma GateTokenOutlivesLogout(a: Auth)
    requires a.prop != ""
    ensures RequestToken(AdminPanel, Logout(a)) == a.prop
    ensures !Logout(a).hasAuth
  {
  }

  /** A typed token that was not saved is sent by the panel but not by the older page. */
  lemma UnsavedTokenOnlyInPanel(stored: Option<string>, text: string)
    requires stored == None && text != ""
    ensures var a := Type(Mount("", stored), text);
      RequestToken(AdminPanel, a) == text && RequestToken(AdminPage, a) == ""
  {
  }
}
